=== FILE: README.md ===
# USDC on NEAR: governance and authorization core in Dafny

This project models the permission layer of the NEAR USDC fiat-token contract as a
functional state machine. It covers:

- the role registry and its two guards;
- the controller → minter table and the minter quotas;
- minting and burning;
- holder → spender allowances;
- pause, blocklist, the blocklister and the upgrade-approval flag;
- the multisig request wrappers and the `FiatTokenAction` dispatch.

Every operation is a pure function from the contract state to a `Result`. `Ok` carries
the next state. `Err` carries the error the contract panics with. A NEAR panic reverts
the whole call, so a failed call leaves the state as it was. This collapses the two
places where the contract writes before it checks:

- `remove_controller` revokes the roles before its existence check.
- `configure_minter_allowance` writes the quota before its blocklist check.

The calling account (the predecessor) and the block timestamp in nanoseconds are explicit
parameters.

Files and modules:

| file | module | contents |
|---|---|---|
| `wrappers.dfy` | `Wrappers` | `Option` |
| `numeric.dfy` | `Numeric` | `u128`/`u32` bounds, checked add/sub, decimal rendering of counts |
| `role.dfy` | `Roles` | the `Role` enum, its discriminants, its `Display`, append-only evolution |
| `rbac.dfy` | `Rbac` | the account × role relation, grant and revoke |
| `errors.dfy` | `Errors` | every error, its panic text, `Result`/`Outcome` and `require!` |
| `requires.dfy` | `Guards` | `require_not_blocklisted`, `require_only` |
| `fiat_token_action.dfy` | `Actions` | `FiatTokenAction`, `role_required`, `requires_controller_check`, `controller` |
| `ledger.dfy` | `FungibleLedger` | abstract balances and total supply |
| `multisig.dfy` | `Multisig` | abstract request store: counter, approvals, threshold, validity |
| `fiat_token.dfy` | `FiatToken` | the contract state and every operation |
| `fiat_token_proofs.dfy` | `FiatTokenProofs` | the state invariant, round trips, wrapper behaviour |

`FiatTokenProofs.Inv` is the invariant of every reachable state. It says:

- an account holds Minter exactly when it has a quota entry;
- an account holds Controller exactly when it has a controller mapping;
- exactly the recorded blocklister holds Blocklister;
- every Multisig holder holds some governance role;
- every stored request id is below the request counter.

`Init` establishes `Inv`. `StepPreservesInv` shows that every external call keeps it.
Governance operations run only through an executed multisig request.

## Model

| member | source | states |
|---|---|---|
| Numeric.CheckedAdd | src/fiat_token.rs:266-270 | `checked_add` on u128: succeeds exactly when the sum fits, and the result is the sum |
| Numeric.CheckedSub | src/fiat_token.rs:283-289 | `checked_sub` on u128: succeeds exactly when the subtrahend is not larger, and the result is the difference |
| Numeric.SubUndoesAdd | src/fiat_token.rs:259-291 | a checked increase followed by a checked decrease by the same amount gives the original value back |
| Numeric.Decimal | src/fiat_token.rs:2201-2203 | the rendering of an approval count is a non-empty string of digits with no leading zero |
| Numeric.DecimalRoundTrip | src/fiat_token.rs:2201-2203 | reading a rendered count back gives the count, so a rendered error reports the true counts |
| Numeric.DecimalInjective | src/fiat_token.rs:2201-2203 | distinct counts render as distinct text |
| Roles.Ordinal | src/role.rs:30-40 | each role's discriminant is its position in the declared order Multisig … Blocklisted |
| Roles.FromOrdinal | src/role.rs:30-40 | decoding a discriminant succeeds exactly for 0..8 and inverts the encoding |
| Roles.OrdinalRoundTrip | src/role.rs:30-40 | encoding then decoding gives the role back, and Blocklisted is last at 8 |
| Roles.OrdinalInjective | src/role.rs:30-40 | distinct roles persist under distinct discriminants |
| Roles.ParseName | src/role.rs:42-59 | a parsed name is one that `Display` prints for the returned role |
| Roles.Name | src/role.rs:42-59 | every role prints as a non-empty name of letters starting with a capital |
| Roles.NameRoundTrip | src/role.rs:42-59 | every role's printed name reads back as that role, e.g. Owner prints "Owner" |
| Roles.NameInjective | src/role.rs:47-57 | `Display` is injective |
| Roles.NonMultisigRoles | src/role.rs:33-36 | Blocklister and Minter, the roles marked non-multisig, are not governance roles |
| Roles.AppendOnlyPreservesMeaning | src/role.rs:24-26 | under an append-only change to the enum every stored discriminant keeps its role |
| Roles.NonAppendChangesMeaning | src/role.rs:24-26 | any change that is not append-only changes the meaning of some stored discriminant |
| Roles.DeclaredNames | src/role.rs:30-59 | the persisted schema lists each role's name at its discriminant |
| Roles.ExtensionKeepsRoles | src/role.rs:24-40 | an extended enum that only appends keeps all nine roles at their discriminants |
| Rbac.Add | src/fiat_token.rs:487 | granting gives the account the role and changes no other (account, role) pair |
| Rbac.Remove | src/fiat_token.rs:495 | revoking takes the role from the account and changes no other pair |
| Rbac.Members | src/fiat_token.rs:500-522 | the members of a role are exactly the accounts holding it |
| Rbac.AddRemoveIdempotent | src/fiat_token.rs:485-497 | granting twice equals granting once, and revoking twice equals revoking once, so repeated blocklisting is harmless |
| Rbac.AddPresentIsNoOp | src/fiat_token.rs:485-489 | granting a role already held changes nothing |
| Rbac.RemoveAbsentIsNoOp | src/fiat_token.rs:1906-1927 | revoking a role that is not held changes nothing |
| Rbac.RemoveUndoesAdd | src/fiat_token.rs:485-497 | revoking a freshly granted role restores the relation |
| Rbac.SameGrantsSameRelation | src/fiat_token.rs:688-700 | two relations that grant the same roles to the same accounts are the same |
| Errors.Message | src/requires.rs:23-36 | every panic the contract raises itself starts with "FiatToken: "; every approval-manager error surfaced by `unwrap` starts with the `unwrap` prefix; a missing request or controller mapping reads as the `unwrap` on `None` text |
| Errors.InsufficientApprovalsMessageMatchesSourceTest | src/fiat_token.rs:2201-2203 | the execution panic with one of two approvals reads "…ExecutionEligibility(InsufficientApprovals { current: 1, required: 2 })" |
| Errors.AlreadyApprovedMessageMatchesSourceTest | src/fiat_token.rs:2227-2229 | the repeated-approval panic reads "…ApprovalError(AlreadyApprovedByAccount)" |
| Errors.ExpiredApprovalMessageMatchesSourceTest | tests/integration_test.rs:1303-1344 | approving an expired request panics with "…ApprovalError(RequestExpired(RequestExpiredError))" |
| Guards.RequireNotBlocklisted | src/requires.rs:23-28 | passes exactly when the account is not Blocklisted; the failure reads "FiatToken: {account} is blocklisted" |
| Guards.RequireOnly | src/requires.rs:31-36 | passes exactly when the caller holds that role; the failure reads "FiatToken: caller is not a {role}" |
| Guards.NoRoleHierarchy | src/requires.rs:31-36 | holding every other role does not satisfy the guard for a missing role |
| Guards.NotRoleMessageIdentifiesRole | src/requires.rs:34 | two "caller is not a …" messages are equal only for the same role |
| Guards.NotOwnerMessageMatchesSourceTest | src/fiat_token.rs:1320 | the role-guard failure for Owner reads "FiatToken: caller is not a Owner" |
| Guards.BlocklistedMessageMatchesSourceTest | src/fiat_token.rs:2461 | the blocklist-guard failure for alice reads "FiatToken: alice is blocklisted" |
| Actions.RoleRequired | src/fiat_token_action.rs:72-89 | the role a request needs is always a governance role |
| Actions.RoleRequiredMatchesTable | src/fiat_token_action.rs:72-89 | `role_required` returns r exactly when the variant-by-variant table assigns r |
| Actions.ControllerOf | src/fiat_token_action.rs:103-115 | returns the embedded controller exactly for the controller-scoped variants and fails for every other |
| Actions.RequiresControllerCheck | src/fiat_token_action.rs:92-100 | the controller check applies exactly to the actions that require the Controller role |
| Actions.ControllerScopedRequiresController | src/fiat_token_action.rs:82-100 | every variant needing the controller check requires Controller |
| Actions.NonAdminRoleRequestsNeedOwner | src/fiat_token_action.rs:74-78 | granting or revoking any role other than Admin, even Minter, requires Owner |
| Actions.RoleRequiredIsGovernance | src/fiat_token_action.rs:72-89 | no request ever requires Multisig, Minter, Blocklister or Blocklisted |
| FungibleLedger.Deposit | src/fiat_token.rs:423 | credits the amount to one account and the supply, fails on overflow, touches no other balance |
| FungibleLedger.Withdraw | src/fiat_token.rs:454-455 | debits the amount from one account and the supply, fails when the balance is short |
| FungibleLedger.Transfer | src/fiat_token.rs:777 | a transfer keeps the total supply |
| FungibleLedger.WithdrawUndoesDeposit | src/fiat_token.rs:406-463 | withdrawing what was deposited restores every balance and the supply |
| FungibleLedger.TransferMovesAmount | src/fiat_token.rs:773-778 | a transfer between two accounts moves exactly the amount and touches nobody else |
| Multisig.Create | src/fiat_token.rs:617-623 | only an authorized account may create; a request gets the current counter as id with no approvals, and the counter advances by one; an unauthorized caller gets UnauthorizedAccount |
| Multisig.Approve | src/fiat_token.rs:641 | an approval succeeds exactly for an authorized approver on a live request not yet approved by them, and adds only that approver; an authorized approval of an expired request fails with RequestExpired |
| Multisig.ExecutionEligibility | src/fiat_token.rs:661 | a request may run exactly when it exists, is not expired and has reached the threshold; an expired request fails with RequestExpired |
| Multisig.Execute | src/fiat_token.rs:645-661 | succeeds exactly for an authorized caller on an eligible request, which is removed from the store with its action handed back; otherwise UnauthorizedAccount or the eligibility error |
| Multisig.Remove | src/fiat_token.rs:664-680 | a request can be removed exactly by an authorized caller once it has expired; otherwise UnauthorizedAccount or RequestStillValid |
| Multisig.TransitionsPreserveValid | src/fiat_token.rs:602-623 | no transition stores an id that the counter has not handed out |
| Multisig.CreateUsesFreshId | src/fiat_token.rs:617-623 | a new request never reuses the id of a stored request |
| Multisig.RemovalDoesNotRewindCounter | tests/integration_test.rs:1348-1409 | create, remove, create hands out consecutive ids |
| Multisig.SecondApprovalRefused | src/fiat_token.rs:2228-2245 | approving the same request twice is refused with AlreadyApprovedByAccount |
| Multisig.ApprovalKeepsRequestPending | src/fiat_token.rs:628-642 | approving never runs or drops the request and adds one approval |
| Multisig.OneApprovalIsInsufficient | src/fiat_token.rs:2200-2224 | with threshold 2, one approval is refused with InsufficientApprovals { current: 1, required: 2 } |
| Multisig.ExpiryBoundary | src/fiat_token.rs:136-143 | a request is live until its validity period has fully elapsed and expired from that instant (created + validity); an authorized approval or execution of it then fails with RequestExpired, it can be removed, and a live one cannot be removed |
| Multisig.PerpetualRequestsCannotBeRemoved | src/fiat_token.rs:136-139 | validity 0 means requests never expire and can never be removed |
| Multisig.UnauthorizedCallerRefused | src/fiat_token.rs:108 | an account the manager does not authorize gets UnauthorizedAccount from all four request operations |
| Multisig.TwoApprovalsSuffice | src/fiat_token.rs:2396-2418 | two distinct approvals within the validity period make a request executable |
| FiatToken.GrantMultisigRole | src/fiat_token.rs:688-691 | grants the role together with Multisig and changes nothing else |
| FiatToken.RevokeMultisigRoleFrom | src/fiat_token.rs:697-700 | takes the role and Multisig away and changes nothing else |
| FiatToken.GrantAll | src/fiat_token.rs:169-173 | after granting a list, an account holds a role exactly if it did before or is listed (the role and Multisig) |
| FiatToken.Init | src/fiat_token.rs:128-164 | the initial roles per list (Multisig for governance lists only), unpaused, not approved for upgrade, empty tables, an empty ledger (supply 0, every balance 0), threshold 2 and validity 432000000000000 ns |
| FiatToken.Allowance | src/fiat_token.rs:178-184 | an allowance that was never set reads as 0 |
| FiatToken.MinterAllowance | src/fiat_token.rs:188-190 | the quota of an account without a quota entry reads as 0 |
| FiatToken.IsMinter | src/fiat_token.rs:194-196 | true exactly for the members of Minter |
| FiatToken.IsBlocklisted | src/fiat_token.rs:525-527 | true exactly for the members of Blocklisted |
| FiatToken.MembersOf | src/fiat_token.rs:500-522 | `admins()`, `master_minters()`, `owners()` and `pausers()` list exactly the holders of that role |
| FiatToken.NextMultisigRequestId | src/fiat_token.rs:602-606 | in a valid store the next id is not the id of any stored request |
| FiatToken.BalanceOf | src/fiat_token.rs:799-802 | `ft_balance_of` fails exactly when paused |
| FiatToken.TotalSupply | src/fiat_token.rs:794-797 | `ft_total_supply` fails exactly when paused |
| FiatToken.GetMinter | src/fiat_token.rs:531-539 | succeeds exactly for a non-blocklisted Controller with a mapping and returns its minter, else "caller does not control a minter" |
| FiatToken.ConfigureController | src/fiat_token.rs:203-216 | needs a MasterMinter and non-blocklisted controller and minter; overwrites the mapping, grants Controller+Multisig, changes no other (account, role) pair and no other field, so the minter's role and quota stay as they were |
| FiatToken.RemoveController | src/fiat_token.rs:221-231 | needs a MasterMinter and an existing mapping ("controller does not exist" otherwise); removes the mapping and Controller+Multisig and changes no other (account, role) pair and no other field |
| FiatToken.ConfigureMinterAllowance | src/fiat_token.rs:236-247 | sets the caller's minter's quota to exactly the value and grants Minter; no other quota, no other (account, role) pair and no other field changes |
| FiatToken.RemoveMinter | src/fiat_token.rs:250-255 | revokes Minter and deletes the quota entry, so the quota reads 0; every other quota entry, every other (account, role) pair and every other field is unchanged |
| FiatToken.IncreaseMinterAllowance | src/fiat_token.rs:259-272 | succeeds exactly for a positive increment that does not overflow; the quota grows by the increment and the minter holds Minter; no other quota, role pair or field changes; zero and overflow fail with their own errors |
| FiatToken.DecreaseMinterAllowance | src/fiat_token.rs:276-291 | succeeds exactly for a positive decrement not above the quota; the quota shrinks by it and the minter holds Minter; no other quota, role pair or field changes; zero and underflow fail with their own errors |
| FiatToken.IncreaseActiveMinterAllowance | src/fiat_token.rs:257-272 | the documented behaviour: succeeds exactly when the minter is active and the coded increase succeeds, with the same result; a removed minter is refused |
| FiatToken.ApproveInternal | src/fiat_token.rs:348-372 | succeeds exactly when unpaused and neither party is blocklisted; sets that one allowance and no other |
| FiatToken.Approve | src/fiat_token.rs:297-300 | the holder sets the allowance absolutely, under the same conditions; every other allowance and all other state are unchanged |
| FiatToken.IncreaseAllowance | src/fiat_token.rs:306-321 | needs a positive increment, an existing non-zero allowance and no overflow, then the `_approve` conditions; the allowance grows by the increment, every other allowance and all other state are unchanged; zero, missing and overflowing increments fail with their own errors |
| FiatToken.DecreaseAllowance | src/fiat_token.rs:327-342 | needs a positive decrement, an existing non-zero allowance and no underflow, then the `_approve` conditions; the allowance shrinks by the decrement, every other allowance and all other state are unchanged; zero, missing and underflowing decrements fail with their own errors |
| FiatToken.TransferFrom | src/fiat_token.rs:379-398 | succeeds exactly when unpaused, no party blocklisted, value within the allowance and the transfer succeeds; the allowance drops by the value, every other allowance is unchanged, the balances are those of the ledger transfer and nothing else changes |
| FiatToken.FtTransfer | src/fiat_token.rs:773-778 | succeeds exactly when unpaused, neither party blocklisted and the ledger transfer succeeds; the balances become those of the ledger transfer and nothing else changes |
| FiatToken.Mint | src/fiat_token.rs:406-435 | succeeds exactly when unpaused, by a non-blocklisted Minter, to a non-blocklisted account, 0 < amount ≤ quota and the deposit fits; the caller's quota drops and the receiver's balance and the supply grow by the amount; no other balance, quota or field changes |
| FiatToken.Burn | src/fiat_token.rs:441-463 | succeeds exactly when unpaused, by a non-blocklisted Minter, 0 < amount ≤ own balance; the balance and the supply drop by the amount; no other balance, quota or field changes |
| FiatToken.Pause | src/fiat_token.rs:466-472 | succeeds exactly for a non-blocklisted Pauser while unpaused, and only sets the flag |
| FiatToken.Unpause | src/fiat_token.rs:475-481 | succeeds exactly for a non-blocklisted Pauser while paused, and only clears the flag |
| FiatToken.Blocklist | src/fiat_token.rs:485-489 | only the Blocklister succeeds; the account becomes Blocklisted, no other (account, role) pair changes and no other field changes |
| FiatToken.Unblocklist | src/fiat_token.rs:493-497 | only the Blocklister succeeds; the account is no longer Blocklisted, no other (account, role) pair changes and no other field changes |
| FiatToken.UpdateBlocklister | src/fiat_token.rs:571-578 | only an Owner succeeds; the new account holds Blocklister and is recorded, the old one loses it, and no other (account, role) pair or field changes |
| FiatToken.ApproveForUpgrade | src/fiat_token.rs:582-587 | succeeds exactly for a non-blocklisted Admin and only sets the flag |
| FiatToken.Upgrade | src/fiat_token.rs:752-761 | succeeds exactly for a non-blocklisted Admin when approved, and the migration resets the flag (line 738) |
| FiatToken.RoleGate | src/fiat_token.rs:544-549 | Admin is granted by Admins; MasterMinter, Owner and Pauser by Owners; any other role is refused |
| FiatToken.ConfigureMultisigRole | src/fiat_token.rs:544-553 | under the gate, the account gains the role and Multisig; no other (account, role) pair and no non-role field changes; other roles are refused with "cannot grant the specified role" |
| FiatToken.RevokeMultisigRole | src/fiat_token.rs:558-567 | under the gate, the account loses the role and Multisig; no other (account, role) pair and no non-role field changes; other roles are refused with "cannot revoke the specified role" |
| FiatToken.ExecuteAction | src/fiat_token.rs:67-105 | an executed action never touches balances, holder allowances or the request store |
| FiatToken.ControllerCheck | src/fiat_token.rs:631-640 | for controller-scoped actions, passes exactly when caller and named controller both map to the same minter |
| FiatToken.RequestGuards | src/fiat_token.rs:629-640 | the request exists, the caller holds its required role and the controller check passes |
| FiatToken.CreateMultisigRequest | src/fiat_token.rs:609-623 | needs the required role and Multisig, with no controller check; stores the request under the next id; without Multisig fails with UnauthorizedAccount |
| FiatToken.ApproveMultisigRequest | src/fiat_token.rs:625-642 | succeeds exactly when the wrapper guards pass and the manager, which requires Multisig, accepts the approval; adds the caller's approval; an expired request is refused with RequestExpired |
| FiatToken.ExecuteMultisigRequest | src/fiat_token.rs:644-662 | succeeds exactly when the guards pass, the caller holds Multisig, the request is eligible and its action succeeds; the outcome is that action run on the state without the request; balances and allowances are kept; an expired request is refused with RequestExpired |
| FiatToken.RemoveMultisigRequest | src/fiat_token.rs:663-681 | succeeds exactly when the guards pass, the caller holds Multisig and the request has expired; deletes only that request |
| FiatTokenProofs.InitEstablishesInv | src/fiat_token.rs:128-164 | the initial state satisfies the invariant |
| FiatTokenProofs.ConfigureControllerPreservesInv | src/fiat_token.rs:203-216 | configuring a controller keeps the invariant |
| FiatTokenProofs.RemoveControllerPreservesInv | src/fiat_token.rs:221-231 | removing a controller keeps the invariant |
| FiatTokenProofs.ConfigureMinterAllowancePreservesInv | src/fiat_token.rs:236-247 | configuring a quota keeps Minter and the quota table in step |
| FiatTokenProofs.IncreaseMinterAllowancePreservesInv | src/fiat_token.rs:259-272 | raising a quota keeps Minter and the quota table in step |
| FiatTokenProofs.DecreaseMinterAllowancePreservesInv | src/fiat_token.rs:276-291 | lowering a quota keeps Minter and the quota table in step |
| FiatTokenProofs.RemoveMinterPreservesInv | src/fiat_token.rs:250-255 | removing a minter keeps Minter and the quota table in step |
| FiatTokenProofs.UpdateBlocklisterPreservesInv | src/fiat_token.rs:571-578 | after a change of blocklister, exactly the recorded blocklister holds the role |
| FiatTokenProofs.ConfigureMultisigRolePreservesInv | src/fiat_token.rs:544-553 | granting a governance role keeps the invariant |
| FiatTokenProofs.RevokeMultisigRolePreservesInv | src/fiat_token.rs:558-567 | revoking a governance role keeps the invariant |
| FiatTokenProofs.ExecuteActionPreservesInv | src/fiat_token.rs:67-105 | every executed action keeps the invariant |
| FiatTokenProofs.ExecutionRechecksRequiredRole | src/fiat_token.rs:67-105 | an executed action succeeds only if the executor holds the role `role_required` names for it |
| FiatTokenProofs.HolderCallsPreserveInv | src/fiat_token.rs:297-398 | approvals, allowance changes and transfers keep the invariant |
| FiatTokenProofs.MintPreservesInv | src/fiat_token.rs:406-435 | minting keeps Minter and the quota table in step |
| FiatTokenProofs.BlocklistPreservesInv | src/fiat_token.rs:485-489 | blocklisting keeps the invariant |
| FiatTokenProofs.UnblocklistPreservesInv | src/fiat_token.rs:493-497 | unblocklisting keeps the invariant |
| FiatTokenProofs.BlocklistCallsPreserveInv | src/fiat_token.rs:485-497 | blocklisting and unblocklisting keep the invariant |
| FiatTokenProofs.RequestCallsPreserveInv | src/fiat_token.rs:617-681 | creating, approving and removing requests keep the invariant |
| FiatTokenProofs.ExecuteRequestPreservesInv | src/fiat_token.rs:648-662 | executing a request keeps the invariant |
| FiatTokenProofs.StepPreservesInv | src/fiat_token.rs:297-681 | every external call keeps the invariant |
| FiatTokenProofs.HolderCallsKeepGovernance | src/fiat_token.rs:297-398 | allowance and transfer calls change no controller, pause flag, blocklister or role |
| FiatTokenProofs.TokenCallsKeepGovernance | src/fiat_token.rs:406-497 | mint, burn and blocklisting (and upgrading, lines 752-761) change no controller, pause flag, blocklister or role but Blocklisted |
| FiatTokenProofs.RequestCallsKeepGovernance | src/fiat_token.rs:617-681 | creating, approving and removing requests change no governance state |
| FiatTokenProofs.DirectCallsKeepGovernance | src/fiat_token.rs:297-497 | outside multisig execution, no call changes controllers, pause, blocklister or any role but Blocklisted |
| FiatTokenProofs.MinterAllowanceRoundTrip | src/fiat_token.rs:259-291 | raising then lowering a quota by the same amount restores it, and restores the whole state for a configured minter |
| FiatTokenProofs.AllowanceRoundTrip | src/fiat_token.rs:306-342 | raising then lowering an allowance by the same amount restores the state |
| FiatTokenProofs.PauseRoundTrip | src/fiat_token.rs:466-481 | pause then unpause, and unpause then pause, restore the state |
| FiatTokenProofs.BlocklistRoundTrip | src/fiat_token.rs:485-497 | unblocklisting a freshly blocklisted account restores the state |
| FiatTokenProofs.GrantRevokeRoundTrip | src/fiat_token.rs:544-567 | revoking a freshly granted governance role restores the state |
| FiatTokenProofs.RevokeFromNonHolderIsNoOp | src/fiat_token.rs:1906-1927 | revoking from an account that holds neither the role nor Multisig succeeds and changes nothing |
| FiatTokenProofs.RevokeDropsMarkerOfRemainingRole | src/fiat_token.rs:697-700 | revoking one role strips Multisig even from an account that keeps another governance role |
| FiatTokenProofs.MintQuotaIsConsumed | src/fiat_token.rs:414-428 | after a mint, a second mint that together with it exceeds the quota fails with "mint amount exceeds minter allowance" |
| FiatTokenProofs.MintTwiceAgainst123 | src/fiat_token.rs:1765-1782 | against a quota of 123, a mint of 100 leaves 23 and a second mint of 100 fails |
| FiatTokenProofs.BurnThenMintKeepsQuota | src/fiat_token.rs:441-463 | burning never raises the quota, so a mint above the quota still fails afterwards |
| FiatTokenProofs.FtTransferMovesAmount | src/fiat_token.rs:773-778 | `ft_transfer` between two accounts moves exactly the amount and leaves every other balance alone |
| FiatTokenProofs.IncreaseReenablesRemovedMinter | src/fiat_token.rs:257-272 | as coded, an increase after `remove_minter` succeeds and makes the removed minter a Minter again with the increment as quota |
| FiatTokenProofs.IncreaseActiveRefusesRemovedMinter | src/fiat_token.rs:257 | under the documented behaviour, an increase for a removed minter is refused |
| FiatTokenProofs.UpgradeApprovalIsSingleUse | src/fiat_token.rs:582-587 | an approval lets any non-blocklisted Admin upgrade once; a second upgrade is refused as not approved |
| FiatTokenProofs.CreateSkipsControllerCheck | src/fiat_token.rs:2313-2335 | a controller can create a request naming another minter's controller, but approving it is refused |
| FiatTokenProofs.CoControllersMayCoApprove | src/fiat_token.rs:2276-2310 | two controllers of one minter can each approve a request about it, after which it is executable |
| FiatTokenProofs.CoControllersConfigureMinterAllowance | src/fiat_token.rs:2276-2310 | create and approve by one controller, approve and execute by its co-controller: the shared minter then holds Minter with exactly the configured quota |
| FiatTokenProofs.ExecutingConfigureSetsQuota | src/fiat_token.rs:644-662 | executing an eligible configure-allowance request by a non-blocklisted controller gives its minter Minter and exactly the requested quota |
| FiatTokenProofs.MultisigRoleRequired | src/fiat_token.rs:609-681 | an account without Multisig can neither create, approve, execute nor remove a request, whatever other role it holds |
| FiatTokenProofs.RevokedOwnerCannotCreate | src/fiat_token.rs:697-700 | an Owner revoked of another governance role keeps Owner but loses Multisig, so it can no longer create an Owner request |
| FiatTokenProofs.ConfiguredControllerResolvesMinter | src/fiat_token.rs:203-231 | after configuring, `get_minter` of the controller returns its minter; after removing the controller it fails |
| FiatTokenProofs.OneApprovalCannotExecute | src/fiat_token.rs:2200-2224 | executing with one approval under threshold 2 fails with InsufficientApprovals { current: 1, required: 2 } |
| FiatTokenProofs.OneNanosecondRequestExpires | tests/integration_test.rs:1303-1344 | under a 1 ns validity period, approving a request at any later instant is refused with RequestExpired |

## Left out

- Persistent storage, Borsh layout, storage keys (`src/fiat_token_storage_key.rs`) and the enumeration order of `admins()`/`owners()`: role members are a set.
- Event emission (`src/events.rs`) and its log format: operations return only the next state.
- `ft_transfer_call` and `ft_resolve_transfer`: cross-contract promises and callbacks.
- NEP-145 storage management (`storage_deposit`, `storage_withdraw`, `storage_unregister`): deposits and refunds.
- The one-yoctoNEAR deposit `ft_transfer` demands, and the metadata and its validation.
- The `migrate` and `upgrade` plumbing (state read, code deploy, metadata rename). Only the approval flag is modelled.
- `#[init]`'s check that the contract does not exist yet.
- FungibleLedger.Transfer: states only that the supply is kept. The fungible-token standard's own transfer checks are not modelled: account registration, sender ≠ receiver and a positive amount.
- FungibleLedger.Withdraw: also fails when the amount exceeds the total supply. That cannot happen while every balance stays below the supply.
- FungibleLedger.Deposit: account registration is not modelled. A missing balance entry reads as 0, so a deposit to an unregistered account succeeds here, where the fungible-token ledger panics because the account is not registered.
- FiatToken.Mint: for the same reason, minting to an account that never registered storage succeeds in the model but panics in the contract.
- Multisig.Create: the approval manager's check on the caller is an ASSUMPTION, and so is its place among the manager's checks. The contract names Multisig as the approver role (src/fiat_token.rs:108) and documents that only Multisig holders may create, approve, execute or remove requests. The model passes that check to all four operations as the `authorized` input. The assumed order is: the request exists, then the caller is authorized, then expiry, a repeat approval or the approval count.
- Multisig.Approve, Multisig.Execute, Multisig.Remove: the same ASSUMPTION on the manager's Multisig check and its order applies.
- Multisig.ExecutionEligibility: counts every recorded approval, including those of accounts that lost their role after approving. The library may filter these out.
- Multisig.Create: the library's request counter is a u32. Creating at its maximum is modelled as a failure, because the library's behaviour there is not visible.
- Errors.Message: some library panic texts are modelled after the `Debug` form printed by `unwrap`, but no test pins them. These are the unauthorized-caller text (whose payload is not modelled), the expiry text on execution and the counter-overflow text.
- FiatToken.TransferFrom: the model does not say which of the guards fails first.
- FiatToken.TransferFrom: the ledger transfer is the abstract one, so a zero amount or `from` equal to `to` succeeds in the model where the fungible-token standard's internal transfer panics.
- FiatToken.FtTransfer: for the same reason, a zero amount or a transfer to oneself succeeds in the model but panics in the contract.
- Multisig.ExpiryBoundary: the instant at which a request expires is an ASSUMPTION. The approval manager's code is not part of this model. The contract's comment at src/fiat_token.rs:136-139 says a request cannot be executed once the period has elapsed, which the model reads as: live while strictly less than the period has elapsed. A clock earlier than the creation time, which the library would reject, counts as live.

## Findings

| source | as written | input that shows it | evidently intended | confidence | as-written member | corrected member |
|---|---|---|---|---|---|---|
| src/fiat_token.rs:257-272 | `increase_minter_allowance` never checks that the minter is active, although its documentation says it applies only to an active minter | a controller whose minter was removed by `remove_minter` calls `increase_minter_allowance(5)`: it succeeds and the minter holds Minter again with quota 5 | a removed minter is refused, and re-enabling goes through `configure_minter_allowance` | medium, not executed; the code may be right and the comment stale | FiatTokenProofs.IncreaseReenablesRemovedMinter | FiatToken.IncreaseActiveMinterAllowance |

The request dispatch keeps the code as written, because that is what the deployed contract runs. `FiatTokenProofs.IncreaseActiveRefusesRemovedMinter` proves the documented behaviour about the corrected member. `decrease_minter_allowance` carries the same comment but is not affected: a removed minter's quota reads 0, so every positive decrement underflows.

=== FILE: errors.dfy ===
/**
 Every way a call into the contract can fail. On the blockchain each of these is a host
 panic that reverts the whole call; the model returns it as the `Err` side of a `Result`
 and the caller's state is left exactly as it was.
 */
module Errors {
  import opened Roles
  import opened Rbac
  import opened Numeric

  /** Which multisig wrapper performed the controller-consistency check. */
  datatype RequestOp = ApproveOp | ExecuteOp | RemoveOp

  datatype Error =
    // Guards of the token contract.
    | NotRole(role: Role)
    | AccountBlocklisted(account: AccountId)
    | ContractPaused
    | ContractNotPaused
    // Controllers and minters.
    | ControllerDoesNotExist
    | CallerControlsNoMinter
    | ZeroMinterIncrement
    | ZeroMinterDecrement
    | MinterAllowanceOverflow
    | MinterAllowanceUnderflow
    | ZeroMint
    | MintExceedsAllowance
    | ZeroBurn
    | BurnExceedsBalance
    // Holder/spender allowances.
    | ZeroAllowanceIncrement
    | ZeroAllowanceDecrement
    | NoInitialAllowanceToIncrement
    | NoInitialAllowanceToDecrement
    | AllowanceOverflow
    | AllowanceUnderflow
    | TransferExceedsAllowance
    // Governance.
    | CannotGrantRole
    | CannotRevokeRole
    | NotOwnMinter(op: RequestOp)
    | NoControllerForAction
    | NotApprovedForUpgrade
    // `Option::unwrap` on a missing entry: the request or a controller mapping.
    | RequestNotFound
    | ControllerMappingMissing
    // The approval manager.
    | UnauthorizedAccount
    | ApprovalRequestExpired
    | AlreadyApprovedByAccount
    | ExecutionRequestExpired
    | InsufficientApprovals(current: nat, required: nat)
    | RequestStillValid
    | RequestIdOverflow
    // The fungible-token ledger.
    | BalanceOverflow
    | TotalSupplyOverflow
    | InsufficientBalance

  datatype Result<+T> = Ok(value: T) | Err(error: Error) {
    predicate IsFailure() { Err? }
    function PropagateFailure<U>(): Result<U> requires Err? { Err(error) }
    function Extract(): T requires Ok? { value }
  }

  /** The result of a guard: it either lets the call continue or aborts it. */
  datatype Outcome = Pass | Fail(error: Error) {
    predicate IsFailure() { Fail? }
    function PropagateFailure<U>(): Result<U> requires Fail? { Err(error) }
  }

  /** `require!(condition, error)`. */
  function Need(condition: bool, error: Error): (o: Outcome)
    ensures o.Pass? <==> condition
  {
    if condition then Pass else Fail(error)
  }

  const UnwrapNone := "called `Option::unwrap()` on a `None` value"
  const UnwrapErr := "called `Result::unwrap()` on an `Err` value: "

  function OpVerb(op: RequestOp): string
  {
    match op
    case ApproveOp => "approve"
    case ExecuteOp => "execute"
    case RemoveOp => "remove"
  }

  /** The failures the approval manager reports as an `Err` that the contract unwraps. */
  predicate FromApprovalManager(e: Error)
  {
    || e.UnauthorizedAccount? || e.ApprovalRequestExpired? || e.AlreadyApprovedByAccount?
    || e.ExecutionRequestExpired? || e.InsufficientApprovals? || e.RequestStillValid?
  }

  /**
   The failures the contract raises itself, with `require!` or `panic_str`, rather than
   through an `unwrap` or inside the ledger.
   */
  predicate RaisedByContract(e: Error)
  {
    !FromApprovalManager(e)
    && !(e.RequestNotFound? || e.ControllerMappingMissing? || e.RequestIdOverflow?)
    && !(e.BalanceOverflow? || e.TotalSupplyOverflow? || e.InsufficientBalance?)
  }

  /** The prefix of every message the contract raises itself. */
  const ContractPrefix := "FiatToken: "

  /** The text after `ContractPrefix` of a failure the contract raises itself. */
  function ContractReason(e: Error): string
    requires RaisedByContract(e)
  {
    match e
    case NotRole(role) => "caller is not a " + Name(role)
    case AccountBlocklisted(account) => account + " is blocklisted"
    case ContractPaused => "paused"
    case ContractNotPaused => "not paused"
    case ControllerDoesNotExist => "controller does not exist"
    case CallerControlsNoMinter => "caller does not control a minter"
    case ZeroMinterIncrement => "minter allowance increment must be greater than 0"
    case ZeroMinterDecrement => "minter allowance decrement must be greater than 0"
    case MinterAllowanceOverflow => "attempted to overflow minter allowance"
    case MinterAllowanceUnderflow => "attempted to underflow minter allowance"
    case ZeroMint => "mint amount not greater than 0"
    case MintExceedsAllowance => "mint amount exceeds minter allowance"
    case ZeroBurn => "burn amount not greater than 0"
    case BurnExceedsBalance => "burn amount exceeds balance"
    case ZeroAllowanceIncrement => "allowance increment must be greater than 0"
    case ZeroAllowanceDecrement => "allowance decrement must be greater than 0"
    case NoInitialAllowanceToIncrement => "must approve initial allowance before incrementing"
    case NoInitialAllowanceToDecrement => "must approve initial allowance before decrementing"
    case AllowanceOverflow => "attempted to overflow allowance"
    case AllowanceUnderflow => "attempted to underflow allowance"
    case TransferExceedsAllowance => "transfer amount exceeds allowance"
    case CannotGrantRole => "cannot grant the specified role"
    case CannotRevokeRole => "cannot revoke the specified role"
    case NotOwnMinter(op) => "can only " + OpVerb(op) + " requests to configure the allowance of your own minter"
    case NoControllerForAction => "can only fetch controller for ConfigureMinterAllowance actions"
    case NotApprovedForUpgrade => "not approved for upgrade"
    case _ => ""
  }

  /** The `Debug` form of the library's expiry error, shared by approval and execution. */
  const RequestExpiredDebug := "RequestExpired(RequestExpiredError)"

  /** The `Debug` form of an approval-manager error, as `Result::unwrap` prints it after `UnwrapErr`. */
  function ManagerReason(e: Error): string
    requires FromApprovalManager(e)
  {
    match e
    case UnauthorizedAccount => "UnauthorizedAccount"
    case ApprovalRequestExpired => "ApprovalError(" + RequestExpiredDebug + ")"
    case AlreadyApprovedByAccount => "ApprovalError(AlreadyApprovedByAccount)"
    case ExecutionRequestExpired => "ExecutionEligibility(" + RequestExpiredDebug + ")"
    case InsufficientApprovals(current, required) =>
      "ExecutionEligibility(InsufficientApprovals { current: " + Decimal(current)
      + ", required: " + Decimal(required) + " })"
    case RequestStillValid => "RemovalNotAllowed(RequestStillValid)"
    case _ => ""
  }

  /**
   The panic text of each failure. The contract's own messages all carry its
   "FiatToken: " prefix; approval-manager errors appear as the `Debug` form that
   `Result::unwrap` prints, and a missing entry as `Option::unwrap`'s text.
   */
  function Message(e: Error): (m: string)
    ensures RaisedByContract(e) ==> ContractPrefix <= m
    ensures FromApprovalManager(e) ==> UnwrapErr <= m
    ensures e.RequestNotFound? || e.ControllerMappingMissing? ==> m == UnwrapNone
  {
    if RaisedByContract(e) then ContractPrefix + ContractReason(e)
    else if FromApprovalManager(e) then UnwrapErr + ManagerReason(e)
    else
      match e
      case RequestIdOverflow => "attempt to add with overflow"
      case BalanceOverflow => "Balance overflow"
      case TotalSupplyOverflow => "Total supply overflow"
      case InsufficientBalance => "The account doesn't have enough balance"
      case _ => UnwrapNone
  }

  /** A failure the contract raises itself reads as its prefix followed by the reason. */
  lemma ContractMessage(e: Error)
    requires RaisedByContract(e)
    ensures Message(e) == ContractPrefix + ContractReason(e)
  {
  }

  /** An approval-manager failure reads as the `unwrap` text followed by its `Debug` form. */
  lemma ManagerMessage(e: Error)
    requires FromApprovalManager(e)
    ensures Message(e) == UnwrapErr + ManagerReason(e)
  {
  }

  /** The insufficient-approvals text the tests match; the counts render as "1" and "2". */
  lemma InsufficientApprovalsMessageMatchesSourceTest()
    ensures Message(InsufficientApprovals(1, 2))
            == UnwrapErr + ("ExecutionEligibility(InsufficientApprovals { current: " + "1" + ", required: " + "2" + " })")
  {
    ManagerMessage(InsufficientApprovals(1, 2));
    assert Decimal(1) == "1" && Decimal(2) == "2";
  }

  /** The repeated-approval text the tests match. */
  lemma ExpiredApprovalMessageMatchesSourceTest()
    ensures Message(ApprovalRequestExpired) == UnwrapErr + ("ApprovalError(" + "RequestExpired(RequestExpiredError)" + ")")
  {
    ManagerMessage(ApprovalRequestExpired);
  }

  lemma AlreadyApprovedMessageMatchesSourceTest()
    ensures Message(AlreadyApprovedByAccount) == UnwrapErr + "ApprovalError(AlreadyApprovedByAccount)"
  {
    ManagerMessage(AlreadyApprovedByAccount);
  }
}

=== FILE: fiat_token.dfy ===
/**
 The token contract's governance and authorization core as a state machine. Each public
 or multisig-dispatched operation is a function from the current state (plus the calling
 account and, where relevant, the block timestamp) to either the next state or the error
 the contract would panic with. A panic reverts the whole call, so the state after an
 error is simply the state before it.
 */
module FiatToken {
  import opened Wrappers
  import opened Numeric
  import opened Roles
  import opened Rbac
  import opened Errors
  import opened Guards
  import A = Actions
  import L = FungibleLedger
  import MS = Multisig

  datatype Contract = Contract(
    token: L.Ledger,
    allowed: map<(AccountId, AccountId), U128>,    // (holder, spender) -> allowance
    controllers: map<AccountId, AccountId>,        // controller -> minter
    minterAllowed: map<AccountId, U128>,           // minter -> remaining mint quota
    blocklister: AccountId,
    paused: bool,
    approvedForUpgrade: bool,
    roles: Relation,
    multisig: MS.Store)

  // ---------------------------------------------------------------------------------------
  // Role helpers.
  // ---------------------------------------------------------------------------------------

  /** Grants a governance role together with the Multisig marker. */
  function GrantMultisigRole(rel: Relation, a: AccountId, role: Role): (rel': Relation)
    ensures Has(rel', a, Multisig) && Has(rel', a, role)
    ensures forall b, q :: (b != a || (q != Multisig && q != role)) ==> (Has(rel', b, q) <==> Has(rel, b, q))
  {
    Add(Add(rel, a, Multisig), a, role)
  }

  /**
   Revokes a governance role together with the Multisig marker. The marker goes even when
   the account still holds another governance role.
   */
  function RevokeMultisigRoleFrom(rel: Relation, a: AccountId, role: Role): (rel': Relation)
    ensures !Has(rel', a, Multisig) && !Has(rel', a, role)
    ensures forall b, q :: (b != a || (q != Multisig && q != role)) ==> (Has(rel', b, q) <==> Has(rel, b, q))
  {
    Remove(Remove(rel, a, Multisig), a, role)
  }

  /** Grants `role` (with the Multisig marker) to each account of `ids`, in order. */
  function GrantAll(rel: Relation, ids: seq<AccountId>, role: Role): (rel': Relation)
    ensures forall b, q :: Has(rel', b, q) <==> Has(rel, b, q) || (b in ids && (q == Multisig || q == role))
    decreases |ids|
  {
    if |ids| == 0 then rel
    else GrantAll(GrantMultisigRole(rel, ids[0], role), ids[1..], role)
  }

  /** The roles `init` hands out, stated account by account. */
  ghost predicate InitialRoles(rel: Relation, admins: seq<AccountId>, masterMinters: seq<AccountId>,
                               owners: seq<AccountId>, pausers: seq<AccountId>, blocklisterId: AccountId)
  {
    forall b, q :: Has(rel, b, q) <==>
      || (q == Admin && b in admins)
      || (q == Blocklister && b == blocklisterId)
      || (q == MasterMinter && b in masterMinters)
      || (q == Owner && b in owners)
      || (q == Pauser && b in pausers)
      || (q == Multisig && (b in admins || b in masterMinters || b in owners || b in pausers))
  }

  /**
   `init`: the deployed multisig configuration (threshold 2, five-day validity), the
   initial governance accounts with their Multisig marker, and one blocklister without it.
   */
  function Init(admins: seq<AccountId>, masterMinters: seq<AccountId>, owners: seq<AccountId>,
                pausers: seq<AccountId>, blocklisterId: AccountId): (c: Contract)
    ensures InitialRoles(c.roles, admins, masterMinters, owners, pausers, blocklisterId)
    ensures c.blocklister == blocklisterId && !c.paused && !c.approvedForUpgrade
    ensures c.controllers == map[] && c.minterAllowed == map[] && c.allowed == map[]
    ensures c.multisig.config == MS.DeployedConfig && c.multisig.nextRequestId == 0 && c.multisig.requests == map[]
    ensures c.token.totalSupply == 0 && forall a :: L.BalanceOf(c.token, a) == 0
  {
    var r0 := GrantAll({}, admins, Admin);
    var r1 := Add(r0, blocklisterId, Blocklister);
    var r2 := GrantAll(r1, masterMinters, MasterMinter);
    var r3 := GrantAll(r2, owners, Owner);
    var r4 := GrantAll(r3, pausers, Pauser);
    Contract(L.Empty, map[], map[], map[], blocklisterId, false, false, r4, MS.New(MS.DeployedConfig))
  }

  // ---------------------------------------------------------------------------------------
  // Views.
  // ---------------------------------------------------------------------------------------

  /** What `spender` may still move out of `holder`'s balance; 0 when never approved. */
  function Allowance(c: Contract, holder: AccountId, spender: AccountId): (a: U128)
    ensures (holder, spender) !in c.allowed ==> a == 0
  {
    if (holder, spender) in c.allowed then c.allowed[(holder, spender)] else 0
  }

  /** A minter's remaining quota; 0 for an account that is not configured. */
  function MinterAllowance(c: Contract, minter: AccountId): (a: U128)
    ensures minter !in c.minterAllowed ==> a == 0
  {
    if minter in c.minterAllowed then c.minterAllowed[minter] else 0
  }

  /** `is_minter`: holding Minter, that is, being listed among the role's members. */
  predicate IsMinter(c: Contract, a: AccountId)
    ensures IsMinter(c, a) <==> a in Members(c.roles, Minter)
  {
    Has(c.roles, a, Minter)
  }

  /** `is_blocklisted`: holding Blocklisted, that is, being listed among the role's members. */
  predicate IsBlocklisted(c: Contract, a: AccountId)
    ensures IsBlocklisted(c, a) <==> a in Members(c.roles, Blocklisted)
  {
    Has(c.roles, a, Blocklisted)
  }

  /** `admins`, `master_minters`, `owners`, `pausers`: the holders of a role, as a set. */
  function MembersOf(c: Contract, r: Role): (s: set<AccountId>)
    ensures forall a :: a in s <==> Has(c.roles, a, r)
  {
    Members(c.roles, r)
  }

  /** `get_next_multisig_request_id`: the identifier the next request will receive, never one in use. */
  function NextMultisigRequestId(c: Contract): (id: U32)
    ensures MS.Valid(c.multisig) ==> id !in c.multisig.requests
  {
    c.multisig.nextRequestId
  }

  /** `ft_balance_of`: unavailable while paused. */
  function BalanceOf(c: Contract, a: AccountId): (r: Result<U128>)
    ensures r.Ok? <==> !c.paused
    ensures r.Ok? ==> r.value == L.BalanceOf(c.token, a)
  {
    var running := Need(!c.paused, ContractPaused);
    :- running;
    Ok(L.BalanceOf(c.token, a))
  }

  /** `ft_total_supply`: unavailable while paused. */
  function TotalSupply(c: Contract): (r: Result<U128>)
    ensures r.Ok? <==> !c.paused
    ensures r.Ok? ==> r.value == c.token.totalSupply
  {
    var running := Need(!c.paused, ContractPaused);
    :- running;
    Ok(c.token.totalSupply)
  }

  // ---------------------------------------------------------------------------------------
  // Controllers and minters.
  // ---------------------------------------------------------------------------------------

  /** The minter governed by the calling controller. */
  function GetMinter(c: Contract, caller: AccountId): (r: Result<AccountId>)
    ensures r.Ok? <==> Has(c.roles, caller, Controller) && !IsBlocklisted(c, caller) && caller in c.controllers
    ensures r.Ok? ==> r.value == c.controllers[caller]
    ensures Has(c.roles, caller, Controller) && !IsBlocklisted(c, caller) && r.Err? ==> r.error == CallerControlsNoMinter
  {
    var authorized := RequireOnly(c.roles, caller, Controller);
    :- authorized;
    :- RequireNotBlocklisted(c.roles, caller);
    if caller in c.controllers then Ok(c.controllers[caller]) else Err(CallerControlsNoMinter)
  }

  /**
   Points `controller` at `minter` (replacing any earlier minter) and makes it a
   Controller. The minter itself is not configured: its role and quota stay as they were.
   */
  function ConfigureController(c: Contract, caller: AccountId, controller: AccountId, minter: AccountId): (r: Result<Contract>)
    ensures r.Ok? <==> Has(c.roles, caller, MasterMinter) && !IsBlocklisted(c, controller) && !IsBlocklisted(c, minter)
    ensures r.Ok? ==> r.value.controllers == c.controllers[controller := minter]
    ensures r.Ok? ==> Has(r.value.roles, controller, Controller) && Has(r.value.roles, controller, Multisig)
    ensures r.Ok? ==> IsMinter(r.value, minter) == IsMinter(c, minter) && MinterAllowance(r.value, minter) == MinterAllowance(c, minter)
    ensures r.Ok? ==> forall b, q :: (b != controller || (q != Multisig && q != Controller)) ==> (Has(r.value.roles, b, q) <==> Has(c.roles, b, q))
    ensures r.Ok? ==> r.value == c.(roles := r.value.roles, controllers := r.value.controllers)
  {
    var authorized := RequireOnly(c.roles, caller, MasterMinter);
    :- authorized;
    :- RequireNotBlocklisted(c.roles, controller);
    :- RequireNotBlocklisted(c.roles, minter);
    Ok(c.(roles := GrantMultisigRole(c.roles, controller, Controller),
          controllers := c.controllers[controller := minter]))
  }

  /**
   Unmaps `controller` and takes away its Controller role and Multisig marker. The source
   revokes the roles before finding out that the controller is unknown; the panic that
   follows reverts that, so an unknown controller leaves everything unchanged.
   */
  function RemoveController(c: Contract, caller: AccountId, controller: AccountId): (r: Result<Contract>)
    ensures r.Ok? <==> Has(c.roles, caller, MasterMinter) && controller in c.controllers
    ensures Has(c.roles, caller, MasterMinter) && controller !in c.controllers ==> r == Err(ControllerDoesNotExist)
    ensures r.Ok? ==> r.value.controllers == c.controllers - {controller}
    ensures r.Ok? ==> !Has(r.value.roles, controller, Controller) && !Has(r.value.roles, controller, Multisig)
    ensures r.Ok? ==> forall b, q :: (b != controller || (q != Multisig && q != Controller)) ==> (Has(r.value.roles, b, q) <==> Has(c.roles, b, q))
    ensures r.Ok? ==> r.value == c.(roles := r.value.roles, controllers := r.value.controllers)
  {
    var authorized := RequireOnly(c.roles, caller, MasterMinter);
    :- authorized;
    if controller !in c.controllers then Err(ControllerDoesNotExist)
    else Ok(c.(roles := RevokeMultisigRoleFrom(c.roles, controller, Controller),
               controllers := c.controllers - {controller}))
  }

  /**
   Sets the quota of the caller's minter to exactly `allowance` (not adding to it) and makes
   the minter a Minter. The source writes before checking that the minter is not
   blocklisted; the panic reverts the write.
   */
  function ConfigureMinterAllowance(c: Contract, caller: AccountId, allowance: U128): (r: Result<Contract>)
    ensures r.Ok? <==> GetMinter(c, caller).Ok? && !IsBlocklisted(c, c.controllers[caller])
    ensures r.Ok? ==> var m := c.controllers[caller];
                      && MinterAllowance(r.value, m) == allowance && IsMinter(r.value, m)
                      && (forall b :: b != m ==> MinterAllowance(r.value, b) == MinterAllowance(c, b))
                      && (forall b :: b != m ==> (IsMinter(r.value, b) <==> IsMinter(c, b)))
    ensures r.Ok? ==> var m := c.controllers[caller];
                      forall b, q :: (b != m || q != Minter) ==> (Has(r.value.roles, b, q) <==> Has(c.roles, b, q))
    ensures r.Ok? ==> r.value == c.(roles := r.value.roles, minterAllowed := r.value.minterAllowed)
  {
    var minter :- GetMinter(c, caller);
    :- RequireNotBlocklisted(c.roles, minter);
    Ok(c.(roles := Add(c.roles, minter, Minter), minterAllowed := c.minterAllowed[minter := allowance]))
  }

  /** Disables the caller's minter: no Minter role and no quota entry, so its quota reads 0. */
  function RemoveMinter(c: Contract, caller: AccountId): (r: Result<Contract>)
    ensures r.Ok? <==> GetMinter(c, caller).Ok?
    ensures r.Ok? ==> var m := c.controllers[caller];
                      && !IsMinter(r.value, m) && m !in r.value.minterAllowed && MinterAllowance(r.value, m) == 0
    ensures r.Ok? ==> var m := c.controllers[caller];
                      && r.value.minterAllowed.Keys == c.minterAllowed.Keys - {m}
                      && (forall b :: b != m ==> MinterAllowance(r.value, b) == MinterAllowance(c, b))
                      && (forall b, q :: (b != m || q != Minter) ==> (Has(r.value.roles, b, q) <==> Has(c.roles, b, q)))
    ensures r.Ok? ==> r.value == c.(roles := r.value.roles, minterAllowed := r.value.minterAllowed)
  {
    var minter :- GetMinter(c, caller);
    Ok(c.(roles := Remove(c.roles, minter, Minter), minterAllowed := c.minterAllowed - {minter}))
  }

  /** Raises the caller's minter's quota by a positive `increment`, failing rather than overflowing. */
  function IncreaseMinterAllowance(c: Contract, caller: AccountId, increment: U128): (r: Result<Contract>)
    ensures r.Ok? <==>
              && GetMinter(c, caller).Ok? && !IsBlocklisted(c, c.controllers[caller])
              && increment > 0 && MinterAllowance(c, c.controllers[caller]) + increment <= U128_MAX
    ensures r.Ok? ==> MinterAllowance(r.value, c.controllers[caller]) == MinterAllowance(c, c.controllers[caller]) + increment
    ensures GetMinter(c, caller).Ok? && !IsBlocklisted(c, c.controllers[caller]) && increment == 0 ==> r == Err(ZeroMinterIncrement)
    ensures (GetMinter(c, caller).Ok? && !IsBlocklisted(c, c.controllers[caller]) && increment > 0
            && MinterAllowance(c, c.controllers[caller]) + increment > U128_MAX) ==> r == Err(MinterAllowanceOverflow)
    ensures r.Ok? ==> var m := c.controllers[caller];
                      && IsMinter(r.value, m)
                      && (forall b :: b != m ==> MinterAllowance(r.value, b) == MinterAllowance(c, b))
                      && (forall b, q :: (b != m || q != Minter) ==> (Has(r.value.roles, b, q) <==> Has(c.roles, b, q)))
    ensures r.Ok? ==> r.value == c.(roles := r.value.roles, minterAllowed := r.value.minterAllowed)
  {
    var minter :- GetMinter(c, caller);
    :- RequireNotBlocklisted(c.roles, minter);
    :- Need(increment > 0, ZeroMinterIncrement);
    var sum := CheckedAdd(MinterAllowance(c, minter), increment);
    if sum.None? then Err(MinterAllowanceOverflow)
    else ConfigureMinterAllowance(c, caller, sum.value)
  }

  /** Lowers the caller's minter's quota by a positive `decrement`, failing rather than going below 0. */
  function DecreaseMinterAllowance(c: Contract, caller: AccountId, decrement: U128): (r: Result<Contract>)
    ensures r.Ok? <==>
              && GetMinter(c, caller).Ok? && !IsBlocklisted(c, c.controllers[caller])
              && decrement > 0 && decrement <= MinterAllowance(c, c.controllers[caller])
    ensures r.Ok? ==> MinterAllowance(r.value, c.controllers[caller]) + decrement == MinterAllowance(c, c.controllers[caller])
    ensures GetMinter(c, caller).Ok? && !IsBlocklisted(c, c.controllers[caller]) && decrement == 0 ==> r == Err(ZeroMinterDecrement)
    ensures (GetMinter(c, caller).Ok? && !IsBlocklisted(c, c.controllers[caller]) && decrement > 0
            && decrement > MinterAllowance(c, c.controllers[caller])) ==> r == Err(MinterAllowanceUnderflow)
    ensures r.Ok? ==> var m := c.controllers[caller];
                      && IsMinter(r.value, m)
                      && (forall b :: b != m ==> MinterAllowance(r.value, b) == MinterAllowance(c, b))
                      && (forall b, q :: (b != m || q != Minter) ==> (Has(r.value.roles, b, q) <==> Has(c.roles, b, q)))
    ensures r.Ok? ==> r.value == c.(roles := r.value.roles, minterAllowed := r.value.minterAllowed)
  {
    var minter :- GetMinter(c, caller);
    :- RequireNotBlocklisted(c.roles, minter);
    :- Need(decrement > 0, ZeroMinterDecrement);
    var difference := CheckedSub(MinterAllowance(c, minter), decrement);
    if difference.None? then Err(MinterAllowanceUnderflow)
    else ConfigureMinterAllowance(c, caller, difference.value)
  }

  /**
   `increase_minter_allowance` as its documentation describes it: it applies only to an
   active minter, one that holds Minter, and refuses a removed minter with the role-guard
   error for Minter. The code does not make this check, and the request dispatch
   (`ExecuteAction`) keeps the code as written; `IncreaseReenablesRemovedMinter` shows
   where the two differ.
   */
  function IncreaseActiveMinterAllowance(c: Contract, caller: AccountId, increment: U128): (r: Result<Contract>)
    ensures r.Ok? <==>
              && GetMinter(c, caller).Ok? && IsMinter(c, c.controllers[caller])
              && IncreaseMinterAllowance(c, caller, increment).Ok?
    ensures r.Ok? ==> r == IncreaseMinterAllowance(c, caller, increment)
    ensures (GetMinter(c, caller).Ok? && !IsBlocklisted(c, c.controllers[caller])
            && !IsMinter(c, c.controllers[caller])) ==> r == Err(NotRole(Minter))
  {
    var minter :- GetMinter(c, caller);
    :- RequireNotBlocklisted(c.roles, minter);
    :- Need(IsMinter(c, minter), NotRole(Minter));
    IncreaseMinterAllowance(c, caller, increment)
  }

  // ---------------------------------------------------------------------------------------
  // Holder/spender allowances.
  // ---------------------------------------------------------------------------------------

  /** `_approve`: sets the (holder, spender) allowance to exactly `allowance`. */
  function ApproveInternal(c: Contract, holder: AccountId, spender: AccountId, allowance: U128): (r: Result<Contract>)
    ensures r.Ok? <==> !c.paused && !IsBlocklisted(c, holder) && !IsBlocklisted(c, spender)
    ensures r.Ok? ==> Allowance(r.value, holder, spender) == allowance
    ensures r.Ok? ==> forall h, s :: (h, s) != (holder, spender) ==> Allowance(r.value, h, s) == Allowance(c, h, s)
    ensures r.Ok? ==> r.value.roles == c.roles && r.value.token == c.token && r.value.minterAllowed == c.minterAllowed
  {
    var running := Need(!c.paused, ContractPaused);
    :- running;
    :- RequireNotBlocklisted(c.roles, holder);
    :- RequireNotBlocklisted(c.roles, spender);
    Ok(c.(allowed := c.allowed[(holder, spender) := allowance]))
  }

  /** `approve`: the caller, as holder, sets `spender`'s allowance absolutely. */
  function Approve(c: Contract, caller: AccountId, spender: AccountId, value: U128): (r: Result<Contract>)
    ensures r.Ok? <==> !c.paused && !IsBlocklisted(c, caller) && !IsBlocklisted(c, spender)
    ensures r.Ok? ==> Allowance(r.value, caller, spender) == value
    ensures r.Ok? ==> forall h, s :: (h, s) != (caller, spender) ==> Allowance(r.value, h, s) == Allowance(c, h, s)
    ensures r.Ok? ==> r.value == c.(allowed := r.value.allowed)
  {
    ApproveInternal(c, caller, spender, value)
  }

  /**
   Raises an existing, non-zero allowance by a positive increment with checked arithmetic.
   These checks come before the pause and blocklist checks of `_approve`.
   */
  function IncreaseAllowance(c: Contract, caller: AccountId, spender: AccountId, increment: U128): (r: Result<Contract>)
    ensures r.Ok? <==>
              && increment > 0 && Allowance(c, caller, spender) > 0
              && Allowance(c, caller, spender) + increment <= U128_MAX
              && !c.paused && !IsBlocklisted(c, caller) && !IsBlocklisted(c, spender)
    ensures r.Ok? ==> Allowance(r.value, caller, spender) == Allowance(c, caller, spender) + increment
    ensures r.Ok? ==> forall h, s :: (h, s) != (caller, spender) ==> Allowance(r.value, h, s) == Allowance(c, h, s)
    ensures r.Ok? ==> r.value == c.(allowed := r.value.allowed)
    ensures increment == 0 ==> r == Err(ZeroAllowanceIncrement)
    ensures increment > 0 && Allowance(c, caller, spender) == 0 ==> r == Err(NoInitialAllowanceToIncrement)
    ensures (increment > 0 && Allowance(c, caller, spender) > 0
            && Allowance(c, caller, spender) + increment > U128_MAX) ==> r == Err(AllowanceOverflow)
  {
    var positive := Need(increment > 0, ZeroAllowanceIncrement);
    :- positive;
    var before := Allowance(c, caller, spender);
    :- Need(before > 0, NoInitialAllowanceToIncrement);
    var sum := CheckedAdd(before, increment);
    if sum.None? then Err(AllowanceOverflow)
    else ApproveInternal(c, caller, spender, sum.value)
  }

  /** Lowers an existing, non-zero allowance by a positive decrement, never below 0. */
  function DecreaseAllowance(c: Contract, caller: AccountId, spender: AccountId, decrement: U128): (r: Result<Contract>)
    ensures r.Ok? <==>
              && decrement > 0 && Allowance(c, caller, spender) > 0
              && decrement <= Allowance(c, caller, spender)
              && !c.paused && !IsBlocklisted(c, caller) && !IsBlocklisted(c, spender)
    ensures r.Ok? ==> Allowance(r.value, caller, spender) + decrement == Allowance(c, caller, spender)
    ensures r.Ok? ==> forall h, s :: (h, s) != (caller, spender) ==> Allowance(r.value, h, s) == Allowance(c, h, s)
    ensures r.Ok? ==> r.value == c.(allowed := r.value.allowed)
    ensures decrement == 0 ==> r == Err(ZeroAllowanceDecrement)
    ensures decrement > 0 && Allowance(c, caller, spender) == 0 ==> r == Err(NoInitialAllowanceToDecrement)
    ensures (decrement > 0 && Allowance(c, caller, spender) > 0
            && decrement > Allowance(c, caller, spender)) ==> r == Err(AllowanceUnderflow)
  {
    var positive := Need(decrement > 0, ZeroAllowanceDecrement);
    :- positive;
    var before := Allowance(c, caller, spender);
    :- Need(before > 0, NoInitialAllowanceToDecrement);
    var difference := CheckedSub(before, decrement);
    if difference.None? then Err(AllowanceUnderflow)
    else ApproveInternal(c, caller, spender, difference.value)
  }

  /** The caller spends `value` of `from`'s allowance to move tokens from `from` to `to`. */
  function TransferFrom(c: Contract, caller: AccountId, from: AccountId, to: AccountId, value: U128): (r: Result<Contract>)
    ensures r.Ok? <==>
              && !c.paused && !IsBlocklisted(c, caller) && !IsBlocklisted(c, from) && !IsBlocklisted(c, to)
              && value <= Allowance(c, from, caller) && L.Transfer(c.token, from, to, value).Ok?
    ensures r.Ok? ==> Allowance(r.value, from, caller) + value == Allowance(c, from, caller)
    ensures r.Ok? ==> forall h, s :: (h, s) != (from, caller) ==> Allowance(r.value, h, s) == Allowance(c, h, s)
    ensures r.Ok? ==> r.value.token == L.Transfer(c.token, from, to, value).value
    ensures r.Ok? ==> r.value.token.totalSupply == c.token.totalSupply
    ensures r.Ok? ==> r.value == c.(allowed := r.value.allowed, token := r.value.token)
    ensures (!c.paused && !IsBlocklisted(c, caller) && !IsBlocklisted(c, from) && !IsBlocklisted(c, to)
            && value > Allowance(c, from, caller)) ==> r == Err(TransferExceedsAllowance)
  {
    var running := Need(!c.paused, ContractPaused);
    :- running;
    :- RequireNotBlocklisted(c.roles, caller);
    :- RequireNotBlocklisted(c.roles, from);
    :- RequireNotBlocklisted(c.roles, to);
    var remaining := CheckedSub(Allowance(c, from, caller), value);
    if remaining.None? then Err(TransferExceedsAllowance)
    else
      var token :- L.Transfer(c.token, from, to, value);
      ApproveInternal(c.(token := token), from, caller, remaining.value)
  }

  /** `ft_transfer`: the guarded entry to the ledger's own transfer. */
  function FtTransfer(c: Contract, caller: AccountId, receiver: AccountId, amount: U128): (r: Result<Contract>)
    ensures r.Ok? <==>
              !c.paused && !IsBlocklisted(c, caller) && !IsBlocklisted(c, receiver) && L.Transfer(c.token, caller, receiver, amount).Ok?
    ensures r.Ok? ==> r.value.token.totalSupply == c.token.totalSupply
    ensures r.Ok? ==> r.value.roles == c.roles && r.value.allowed == c.allowed && r.value.minterAllowed == c.minterAllowed
    ensures r.Ok? ==> r.value == c.(token := L.Transfer(c.token, caller, receiver, amount).value)
  {
    var running := Need(!c.paused, ContractPaused);
    :- running;
    :- RequireNotBlocklisted(c.roles, caller);
    :- RequireNotBlocklisted(c.roles, receiver);
    var token :- L.Transfer(c.token, caller, receiver, amount);
    Ok(c.(token := token))
  }

  // ---------------------------------------------------------------------------------------
  // Minting and burning.
  // ---------------------------------------------------------------------------------------

  /** Mints `amount` to `to`, spending exactly `amount` of the calling minter's quota. */
  function Mint(c: Contract, caller: AccountId, to: AccountId, amount: U128): (r: Result<Contract>)
    ensures r.Ok? <==>
              && !c.paused && IsMinter(c, caller) && !IsBlocklisted(c, caller) && !IsBlocklisted(c, to)
              && 0 < amount <= MinterAllowance(c, caller) && L.Deposit(c.token, to, amount).Ok?
    ensures r.Ok? ==> MinterAllowance(r.value, caller) + amount == MinterAllowance(c, caller)
    ensures r.Ok? ==> r.value.token.totalSupply == c.token.totalSupply + amount
    ensures r.Ok? ==> L.BalanceOf(r.value.token, to) == L.BalanceOf(c.token, to) + amount
    ensures r.Ok? ==> forall b :: b != to ==> L.BalanceOf(r.value.token, b) == L.BalanceOf(c.token, b)
    ensures r.Ok? ==> forall b :: b != caller ==> MinterAllowance(r.value, b) == MinterAllowance(c, b)
    ensures r.Ok? ==> r.value == c.(token := L.Deposit(c.token, to, amount).value,
                                    minterAllowed := c.minterAllowed[caller := MinterAllowance(c, caller) - amount])
    ensures (!c.paused && IsMinter(c, caller) && !IsBlocklisted(c, caller) && !IsBlocklisted(c, to)
            && amount > MinterAllowance(c, caller)) ==> r == Err(MintExceedsAllowance)
    ensures !c.paused && !IsMinter(c, caller) ==> r == Err(NotRole(Minter))
    ensures c.paused ==> r == Err(ContractPaused)
  {
    var running := Need(!c.paused, ContractPaused);
    :- running;
    :- RequireOnly(c.roles, caller, Minter);
    :- RequireNotBlocklisted(c.roles, caller);
    :- RequireNotBlocklisted(c.roles, to);
    :- Need(amount > 0, ZeroMint);
    var left := CheckedSub(MinterAllowance(c, caller), amount);
    if left.None? then Err(MintExceedsAllowance)
    else
      var token :- L.Deposit(c.token, to, amount);
      Ok(c.(token := token, minterAllowed := c.minterAllowed[caller := left.value]))
  }

  /** Burns `amount` from the calling minter's own balance; the minter's quota is not touched. */
  function Burn(c: Contract, caller: AccountId, amount: U128): (r: Result<Contract>)
    ensures r.Ok? <==>
              && !c.paused && IsMinter(c, caller) && !IsBlocklisted(c, caller)
              && 0 < amount <= L.BalanceOf(c.token, caller) && L.Withdraw(c.token, caller, amount).Ok?
    ensures r.Ok? ==> r.value.minterAllowed == c.minterAllowed
    ensures r.Ok? ==> L.BalanceOf(r.value.token, caller) + amount == L.BalanceOf(c.token, caller)
    ensures r.Ok? ==> r.value.token.totalSupply + amount == c.token.totalSupply
    ensures r.Ok? ==> forall b :: b != caller ==> L.BalanceOf(r.value.token, b) == L.BalanceOf(c.token, b)
    ensures r.Ok? ==> r.value == c.(token := L.Withdraw(c.token, caller, amount).value)
    ensures (!c.paused && IsMinter(c, caller) && !IsBlocklisted(c, caller) && amount > 0
            && amount > L.BalanceOf(c.token, caller)) ==> r == Err(BurnExceedsBalance)
  {
    var running := Need(!c.paused, ContractPaused);
    :- running;
    :- RequireOnly(c.roles, caller, Minter);
    :- RequireNotBlocklisted(c.roles, caller);
    :- Need(amount > 0, ZeroBurn);
    // `ft_balance_of` repeats the pause check, which has already passed here.
    var balance := L.BalanceOf(c.token, caller);
    :- Need(balance >= amount, BurnExceedsBalance);
    var token :- L.Withdraw(c.token, caller, amount);
    Ok(c.(token := token))
  }

  // ---------------------------------------------------------------------------------------
  // Pause, blocklist, blocklister, upgrade approval.
  // ---------------------------------------------------------------------------------------

  function Pause(c: Contract, caller: AccountId): (r: Result<Contract>)
    ensures r.Ok? <==> Has(c.roles, caller, Pauser) && !c.paused && !IsBlocklisted(c, caller)
    ensures r.Ok? ==> r.value == c.(paused := true)
  {
    var authorized := RequireOnly(c.roles, caller, Pauser);
    :- authorized;
    :- Need(!c.paused, ContractPaused);
    :- RequireNotBlocklisted(c.roles, caller);
    Ok(c.(paused := true))
  }

  function Unpause(c: Contract, caller: AccountId): (r: Result<Contract>)
    ensures r.Ok? <==> Has(c.roles, caller, Pauser) && c.paused && !IsBlocklisted(c, caller)
    ensures r.Ok? ==> r.value == c.(paused := false)
  {
    var authorized := RequireOnly(c.roles, caller, Pauser);
    :- authorized;
    :- Need(c.paused, ContractNotPaused);
    :- RequireNotBlocklisted(c.roles, caller);
    Ok(c.(paused := false))
  }

  /** Only the Blocklister may blocklist; blocklisting an already blocklisted account is a no-op. */
  function Blocklist(c: Contract, caller: AccountId, account: AccountId): (r: Result<Contract>)
    ensures r.Ok? <==> Has(c.roles, caller, Blocklister)
    ensures r.Ok? ==> IsBlocklisted(r.value, account)
    ensures r.Ok? ==> forall b, q :: (b != account || q != Blocklisted) ==> (Has(r.value.roles, b, q) <==> Has(c.roles, b, q))
    ensures r.Ok? ==> r.value == c.(roles := r.value.roles)
  {
    var authorized := RequireOnly(c.roles, caller, Blocklister);
    :- authorized;
    Ok(c.(roles := Add(c.roles, account, Blocklisted)))
  }

  function Unblocklist(c: Contract, caller: AccountId, account: AccountId): (r: Result<Contract>)
    ensures r.Ok? <==> Has(c.roles, caller, Blocklister)
    ensures r.Ok? ==> !IsBlocklisted(r.value, account)
    ensures r.Ok? ==> forall b, q :: (b != account || q != Blocklisted) ==> (Has(r.value.roles, b, q) <==> Has(c.roles, b, q))
    ensures r.Ok? ==> r.value == c.(roles := r.value.roles)
  {
    var authorized := RequireOnly(c.roles, caller, Blocklister);
    :- authorized;
    Ok(c.(roles := Remove(c.roles, account, Blocklisted)))
  }

  /** Moves the Blocklister role from the current blocklister to `newBlocklister`. */
  function UpdateBlocklister(c: Contract, caller: AccountId, newBlocklister: AccountId): (r: Result<Contract>)
    ensures r.Ok? <==> Has(c.roles, caller, Owner)
    ensures r.Ok? ==> r.value.blocklister == newBlocklister && Has(r.value.roles, newBlocklister, Blocklister)
    ensures r.Ok? && newBlocklister != c.blocklister ==> !Has(r.value.roles, c.blocklister, Blocklister)
    ensures r.Ok? ==> forall b, q :: (q != Blocklister || (b != c.blocklister && b != newBlocklister)) ==> (Has(r.value.roles, b, q) <==> Has(c.roles, b, q))
    ensures r.Ok? ==> r.value == c.(roles := r.value.roles, blocklister := newBlocklister)
  {
    var authorized := RequireOnly(c.roles, caller, Owner);
    :- authorized;
    Ok(c.(roles := Add(Remove(c.roles, c.blocklister, Blocklister), newBlocklister, Blocklister),
          blocklister := newBlocklister))
  }

  function ApproveForUpgrade(c: Contract, caller: AccountId): (r: Result<Contract>)
    ensures r.Ok? <==> Has(c.roles, caller, Admin) && !IsBlocklisted(c, caller)
    ensures r.Ok? ==> r.value == c.(approvedForUpgrade := true)
  {
    var authorized := RequireOnly(c.roles, caller, Admin);
    :- authorized;
    :- RequireNotBlocklisted(c.roles, caller);
    Ok(c.(approvedForUpgrade := true))
  }

  /**
   `upgrade`: the upgrade hook admits a non-blocklisted Admin once the contract has been
   approved for upgrade; the migration then carries the state over with the approval reset.
   */
  function Upgrade(c: Contract, caller: AccountId): (r: Result<Contract>)
    ensures r.Ok? <==> Has(c.roles, caller, Admin) && !IsBlocklisted(c, caller) && c.approvedForUpgrade
    ensures r.Ok? ==> r.value == c.(approvedForUpgrade := false)
  {
    var authorized := RequireOnly(c.roles, caller, Admin);
    :- authorized;
    :- RequireNotBlocklisted(c.roles, caller);
    :- Need(c.approvedForUpgrade, NotApprovedForUpgrade);
    Ok(c.(approvedForUpgrade := false))
  }

  // ---------------------------------------------------------------------------------------
  // Governance roles.
  // ---------------------------------------------------------------------------------------

  /**
   Who may grant or revoke a governance role: Admin for Admin; Owner for MasterMinter,
   Owner and Pauser; nobody for any other role.
   */
  function RoleGate(roles: Relation, caller: AccountId, role: Role, refusal: Error): (o: Outcome)
    ensures o.Pass? <==> (role == Admin && Has(roles, caller, Admin))
                         || ((role == MasterMinter || role == Owner || role == Pauser) && Has(roles, caller, Owner))
    ensures role !in {Admin, MasterMinter, Owner, Pauser} ==> o == Fail(refusal)
  {
    match role
    case Admin => RequireOnly(roles, caller, Admin)
    case MasterMinter => RequireOnly(roles, caller, Owner)
    case Owner => RequireOnly(roles, caller, Owner)
    case Pauser => RequireOnly(roles, caller, Owner)
    case _ => Fail(refusal)
  }

  /** Grants `role` and the Multisig marker to `account`. */
  function ConfigureMultisigRole(c: Contract, caller: AccountId, role: Role, account: AccountId): (r: Result<Contract>)
    ensures r.Ok? <==> RoleGate(c.roles, caller, role, CannotGrantRole).Pass?
    ensures role !in {Admin, MasterMinter, Owner, Pauser} ==> r == Err(CannotGrantRole)
    ensures r.Ok? ==> Has(r.value.roles, account, role) && Has(r.value.roles, account, Multisig)
    ensures r.Ok? ==> forall b, q :: (b != account || (q != Multisig && q != role)) ==> (Has(r.value.roles, b, q) <==> Has(c.roles, b, q))
    ensures r.Ok? ==> r.value == c.(roles := r.value.roles)
  {
    var permitted := RoleGate(c.roles, caller, role, CannotGrantRole);
    :- permitted;
    Ok(c.(roles := GrantMultisigRole(c.roles, account, role)))
  }

  /**
   Revokes `role` and the Multisig marker from `account`; revoking a role the account does
   not hold is not an error.
   */
  function RevokeMultisigRole(c: Contract, caller: AccountId, role: Role, account: AccountId): (r: Result<Contract>)
    ensures r.Ok? <==> RoleGate(c.roles, caller, role, CannotRevokeRole).Pass?
    ensures role !in {Admin, MasterMinter, Owner, Pauser} ==> r == Err(CannotRevokeRole)
    ensures r.Ok? ==> !Has(r.value.roles, account, role) && !Has(r.value.roles, account, Multisig)
    ensures r.Ok? ==> forall b, q :: (b != account || (q != Multisig && q != role)) ==> (Has(r.value.roles, b, q) <==> Has(c.roles, b, q))
    ensures r.Ok? ==> r.value == c.(roles := r.value.roles)
  {
    var permitted := RoleGate(c.roles, caller, role, CannotRevokeRole);
    :- permitted;
    Ok(c.(roles := RevokeMultisigRoleFrom(c.roles, account, role)))
  }

  // ---------------------------------------------------------------------------------------
  // Multisig dispatch.
  // ---------------------------------------------------------------------------------------

  /**
   What an executed request does. The action runs as the executing account, so the inner
   operation repeats its own role checks against that account (see
   `ExecutionRechecksRequiredRole`). Governance actions never touch balances, holder
   allowances or the request store.
   */
  function ExecuteAction(c: Contract, caller: AccountId, action: A.Action): (r: Result<Contract>)
    ensures r.Ok? ==> r.value.token == c.token && r.value.allowed == c.allowed && r.value.multisig == c.multisig
  {
    match action
    case ApproveForUpgrade => ApproveForUpgrade(c, caller)
    case ConfigureController(controllerId, minterId) => ConfigureController(c, caller, controllerId, minterId)
    case ConfigureMinterAllowance(_, minterAllowance) => ConfigureMinterAllowance(c, caller, minterAllowance)
    case ConfigureMultisigRole(role, accountId) => ConfigureMultisigRole(c, caller, role, accountId)
    case DecreaseMinterAllowance(_, decrement) => DecreaseMinterAllowance(c, caller, decrement)
    case IncreaseMinterAllowance(_, increment) => IncreaseMinterAllowance(c, caller, increment)
    case Pause => Pause(c, caller)
    case RemoveController(controllerId) => RemoveController(c, caller, controllerId)
    case RemoveMinter(_) => RemoveMinter(c, caller)
    case RevokeMultisigRole(role, accountId) => RevokeMultisigRole(c, caller, role, accountId)
    case UpdateBlocklister(newBlocklisterId) => UpdateBlocklister(c, caller, newBlocklisterId)
    case Unpause => Unpause(c, caller)
  }

  /**
   For controller-scoped actions: the caller must govern the same minter as the controller
   the action names. A controller or caller with no mapping fails the `unwrap`.
   */
  function ControllerCheck(c: Contract, caller: AccountId, action: A.Action, op: RequestOp): (o: Outcome)
    ensures o.Pass? <==>
              !A.RequiresControllerCheck(action)
              || (&& action.controllerId in c.controllers && caller in c.controllers
                  && c.controllers[action.controllerId] == c.controllers[caller])
  {
    if !A.RequiresControllerCheck(action) then Pass
    else
      var named := A.ControllerOf(action).value;
      if named !in c.controllers || caller !in c.controllers then Fail(ControllerMappingMissing)
      else Need(c.controllers[named] == c.controllers[caller], NotOwnMinter(op))
  }

  /** The role and controller checks shared by approve, execute and remove. */
  function RequestGuards(c: Contract, caller: AccountId, id: U32, op: RequestOp): (o: Outcome)
    ensures o.Pass? <==>
              && id in c.multisig.requests
              && Has(c.roles, caller, A.RoleRequired(c.multisig.requests[id].action))
              && ControllerCheck(c, caller, c.multisig.requests[id].action, op).Pass?
  {
    if id !in c.multisig.requests then Fail(RequestNotFound)
    else
      var action := c.multisig.requests[id].action;
      var roleCheck := RequireOnly(c.roles, caller, A.RoleRequired(action));
      if roleCheck.Fail? then roleCheck else ControllerCheck(c, caller, action, op)
  }

  /**
   The Multisig role is the approval manager's approver role: it checks it, on the calling
   account, before creating, approving, executing or removing a request. Where the
   manager makes that check among its own checks is an ASSUMPTION (its code is not part
   of this model): before any other check of its own.
   */
  predicate ManagerAuthorizes(c: Contract, caller: AccountId)
  {
    Has(c.roles, caller, Multisig)
  }

  /** The state with request `id` taken out of the store and nothing else changed. */
  function Consumed(c: Contract, id: U32): Contract
  {
    c.(multisig := c.multisig.(requests := c.multisig.requests - {id}))
  }

  /**
   Stores a new request. The caller needs the action's role and the Multisig role, but
   the controller check is not made here.
   */
  function CreateMultisigRequest(c: Contract, caller: AccountId, action: A.Action, nowNs: nat): (r: Result<(Contract, U32)>)
    ensures r.Ok? <==>
              && Has(c.roles, caller, A.RoleRequired(action)) && ManagerAuthorizes(c, caller)
              && c.multisig.nextRequestId < U32_MAX
    ensures Has(c.roles, caller, A.RoleRequired(action)) && !ManagerAuthorizes(c, caller) ==> r == Err(UnauthorizedAccount)
    ensures r.Ok? ==> r.value.1 == c.multisig.nextRequestId && r.value.0.multisig.nextRequestId == r.value.1 + 1
    ensures r.Ok? ==> r.value.0.multisig.requests == c.multisig.requests[r.value.1 := MS.Request(action, {}, nowNs)]
    ensures r.Ok? ==> r.value.0 == c.(multisig := r.value.0.multisig)
  {
    var authorized := RequireOnly(c.roles, caller, A.RoleRequired(action));
    :- authorized;
    var created :- MS.Create(c.multisig, action, ManagerAuthorizes(c, caller), nowNs);
    Ok((c.(multisig := created.0), created.1))
  }

  /** Adds the caller's approval. */
  function ApproveMultisigRequest(c: Contract, caller: AccountId, id: U32, nowNs: nat): (r: Result<Contract>)
    ensures r.Ok? <==>
              && RequestGuards(c, caller, id, ApproveOp).Pass?
              && MS.Approve(c.multisig, id, caller, ManagerAuthorizes(c, caller), nowNs).Ok?
    ensures RequestGuards(c, caller, id, ApproveOp).Pass? && !ManagerAuthorizes(c, caller) ==> r == Err(UnauthorizedAccount)
    ensures (RequestGuards(c, caller, id, ApproveOp).Pass? && ManagerAuthorizes(c, caller)
            && MS.Expired(c.multisig.config, c.multisig.requests[id], nowNs)) ==> r == Err(ApprovalRequestExpired)
    ensures r.Ok? ==> id in c.multisig.requests && id in r.value.multisig.requests
    ensures r.Ok? ==> r.value.multisig.requests[id].approvedBy == c.multisig.requests[id].approvedBy + {caller}
    ensures r.Ok? ==> caller !in c.multisig.requests[id].approvedBy
    ensures r.Ok? ==> r.value == c.(multisig := r.value.multisig)
  {
    var permitted := RequestGuards(c, caller, id, ApproveOp);
    :- permitted;
    var store :- MS.Approve(c.multisig, id, caller, ManagerAuthorizes(c, caller), nowNs);
    Ok(c.(multisig := store))
  }

  /**
   Runs a fully approved, unexpired request as the caller and consumes it: the outcome is
   that of the stored action run on the state without the request. If the action itself
   fails the whole call reverts, leaving the request and its approvals in place.
   */
  function ExecuteMultisigRequest(c: Contract, caller: AccountId, id: U32, nowNs: nat): (r: Result<Contract>)
    ensures r.Ok? <==>
              && RequestGuards(c, caller, id, ExecuteOp).Pass? && ManagerAuthorizes(c, caller)
              && MS.ExecutionEligibility(c.multisig, id, nowNs).Pass?
              && ExecuteAction(Consumed(c, id), caller, c.multisig.requests[id].action).Ok?
    ensures (&& RequestGuards(c, caller, id, ExecuteOp).Pass? && ManagerAuthorizes(c, caller)
             && MS.ExecutionEligibility(c.multisig, id, nowNs).Pass?) ==>
              r == ExecuteAction(Consumed(c, id), caller, c.multisig.requests[id].action)
    ensures RequestGuards(c, caller, id, ExecuteOp).Pass? && !ManagerAuthorizes(c, caller) ==> r == Err(UnauthorizedAccount)
    ensures (RequestGuards(c, caller, id, ExecuteOp).Pass? && ManagerAuthorizes(c, caller)
            && MS.Expired(c.multisig.config, c.multisig.requests[id], nowNs)) ==> r == Err(ExecutionRequestExpired)
    ensures r.Ok? ==> r.value.multisig == Consumed(c, id).multisig && id !in r.value.multisig.requests
    ensures r.Ok? ==> r.value.token == c.token && r.value.allowed == c.allowed
  {
    var permitted := RequestGuards(c, caller, id, ExecuteOp);
    :- permitted;
    var taken :- MS.Execute(c.multisig, id, ManagerAuthorizes(c, caller), nowNs);
    ExecuteAction(c.(multisig := taken.0), caller, taken.1)
  }

  /** Discards an expired request without running it. */
  function RemoveMultisigRequest(c: Contract, caller: AccountId, id: U32, nowNs: nat): (r: Result<Contract>)
    ensures r.Ok? <==>
              && RequestGuards(c, caller, id, RemoveOp).Pass? && ManagerAuthorizes(c, caller)
              && MS.Expired(c.multisig.config, c.multisig.requests[id], nowNs)
    ensures RequestGuards(c, caller, id, RemoveOp).Pass? && !ManagerAuthorizes(c, caller) ==> r == Err(UnauthorizedAccount)
    ensures r.Ok? ==> r.value == Consumed(c, id)
  {
    var permitted := RequestGuards(c, caller, id, RemoveOp);
    :- permitted;
    var store :- MS.Remove(c.multisig, id, ManagerAuthorizes(c, caller), nowNs);
    Ok(c.(multisig := store))
  }
}

=== FILE: fiat_token_action.dfy ===
/**
 The privileged operations a multisig request can carry, with the role an account needs
 to create, approve, execute or remove such a request, and the controller-scoped subset
 that additionally checks the caller governs the same minter.
 */
module Actions {
  import opened Numeric
  import opened Roles
  import opened Rbac
  import opened Errors

  datatype Action =
    | ApproveForUpgrade
    | ConfigureController(controllerId: AccountId, minterId: AccountId)
    | ConfigureMinterAllowance(controllerId: AccountId, minterAllowance: U128)
    | ConfigureMultisigRole(role: Role, accountId: AccountId)
    | DecreaseMinterAllowance(controllerId: AccountId, decrement: U128)
    | IncreaseMinterAllowance(controllerId: AccountId, increment: U128)
    | Pause
    | RemoveController(controllerId: AccountId)
    | RemoveMinter(controllerId: AccountId)
    | RevokeMultisigRole(role: Role, accountId: AccountId)
    | UpdateBlocklister(newBlocklisterId: AccountId)
    | Unpause

  /** The role required of every account that creates, approves, executes or removes a request for `a`. */
  function RoleRequired(a: Action): (r: Role)
    ensures IsGovernance(r)
  {
    match a
    case ConfigureMultisigRole(role, _) => if role == Admin then Admin else Owner
    case RevokeMultisigRole(role, _) => if role == Admin then Admin else Owner
    case ApproveForUpgrade => Admin
    case ConfigureController(_, _) => MasterMinter
    case RemoveController(_) => MasterMinter
    case ConfigureMinterAllowance(_, _) => Controller
    case DecreaseMinterAllowance(_, _) => Controller
    case IncreaseMinterAllowance(_, _) => Controller
    case RemoveMinter(_) => Controller
    case Pause => Pauser
    case Unpause => Pauser
    case UpdateBlocklister(_) => Owner
  }

  /**
   True for the four actions scoped to one controller's minter, which are exactly the
   actions a Controller is needed for.
   */
  predicate RequiresControllerCheck(a: Action)
    ensures RequiresControllerCheck(a) <==> RoleRequired(a) == Controller
  {
    a.ConfigureMinterAllowance? || a.DecreaseMinterAllowance? || a.IncreaseMinterAllowance? || a.RemoveMinter?
  }

  /** The controller named by a controller-scoped action; any other action panics. */
  function ControllerOf(a: Action): (r: Result<AccountId>)
    ensures r.Ok? <==> RequiresControllerCheck(a)
    ensures r.Ok? ==> r.value == a.controllerId
    ensures r.Err? ==> r.error == NoControllerForAction
  {
    match a
    case ConfigureMinterAllowance(controllerId, _) => Ok(controllerId)
    case DecreaseMinterAllowance(controllerId, _) => Ok(controllerId)
    case IncreaseMinterAllowance(controllerId, _) => Ok(controllerId)
    case RemoveMinter(controllerId) => Ok(controllerId)
    case _ => Err(NoControllerForAction)
  }

  /**
   The table of required roles, stated independently of `RoleRequired` as the set of
   actions each role governs.
   */
  predicate Governs(r: Role, a: Action)
  {
    match r
    case Admin => a.ApproveForUpgrade? || ((a.ConfigureMultisigRole? || a.RevokeMultisigRole?) && a.role == Admin)
    case Owner => a.UpdateBlocklister? || ((a.ConfigureMultisigRole? || a.RevokeMultisigRole?) && a.role != Admin)
    case MasterMinter => a.ConfigureController? || a.RemoveController?
    case Controller => RequiresControllerCheck(a)
    case Pauser => a.Pause? || a.Unpause?
    case _ => false
  }

  /** `RoleRequired` agrees with the table in both directions: each action is governed by exactly its required role. */
  lemma RoleRequiredMatchesTable(a: Action, r: Role)
    ensures RoleRequired(a) == r <==> Governs(r, a)
  {
  }

  /** Every controller-scoped action requires the Controller role. */
  lemma ControllerScopedRequiresController(a: Action)
    requires RequiresControllerCheck(a)
    ensures RoleRequired(a) == Controller
  {
  }

  /**
   Role requests for anything but Admin need an Owner, including roles that execution will
   later refuse to grant, such as Minter.
   */
  lemma NonAdminRoleRequestsNeedOwner(role: Role, account: AccountId)
    requires role != Admin
    ensures RoleRequired(ConfigureMultisigRole(role, account)) == Owner
    ensures RoleRequired(RevokeMultisigRole(role, account)) == Owner
  {
  }

  /** `RoleRequired` never returns a role outside governance: not Multisig, Minter, Blocklister or Blocklisted. */
  lemma RoleRequiredIsGovernance(a: Action)
    ensures RoleRequired(a) !in {Multisig, Minter, Blocklister, Blocklisted}
  {
  }
}

=== FILE: fiat_token_proofs.dfy ===
/**
 Properties of the token contract state machine: the structural invariant every
 reachable state keeps, round trips of paired operations, and the behaviour of the
 multisig wrappers.
 */
module FiatTokenProofs {
  import opened Numeric
  import opened Roles
  import opened Rbac
  import opened Errors
  import A = Actions
  import L = FungibleLedger
  import MS = Multisig
  import opened FiatToken

  /** Holding any of the five roles that come with the Multisig marker. */
  predicate HoldsGovernanceRole(rel: Relation, a: AccountId)
  {
    Has(rel, a, Admin) || Has(rel, a, Controller) || Has(rel, a, MasterMinter) || Has(rel, a, Owner) || Has(rel, a, Pauser)
  }

  /**
   The structural invariant: the Minter role and the quota table agree, the Controller role
   and the controller table agree, exactly the recorded blocklister holds Blocklister,
   every Multisig holder holds some governance role, and the request store is well formed.
   */
  ghost predicate Inv(c: Contract)
  {
    && (forall a :: IsMinter(c, a) <==> a in c.minterAllowed)
    && (forall a :: Has(c.roles, a, Controller) <==> a in c.controllers)
    && (forall a :: Has(c.roles, a, Blocklister) <==> a == c.blocklister)
    && (forall a :: Has(c.roles, a, Multisig) ==> HoldsGovernanceRole(c.roles, a))
    && MS.Valid(c.multisig)
  }

  lemma InitEstablishesInv(admins: seq<AccountId>, masterMinters: seq<AccountId>, owners: seq<AccountId>,
                           pausers: seq<AccountId>, blocklisterId: AccountId)
    ensures Inv(Init(admins, masterMinters, owners, pausers, blocklisterId))
  {
  }

  lemma ConfigureControllerPreservesInv(c: Contract, caller: AccountId, controller: AccountId, minter: AccountId)
    requires Inv(c)
    ensures ConfigureController(c, caller, controller, minter).Ok? ==> Inv(ConfigureController(c, caller, controller, minter).value)
  {
  }

  lemma RemoveControllerPreservesInv(c: Contract, caller: AccountId, controller: AccountId)
    requires Inv(c)
    ensures RemoveController(c, caller, controller).Ok? ==> Inv(RemoveController(c, caller, controller).value)
  {
  }

  lemma ConfigureMinterAllowancePreservesInv(c: Contract, caller: AccountId, allowance: U128)
    requires Inv(c)
    ensures ConfigureMinterAllowance(c, caller, allowance).Ok? ==> Inv(ConfigureMinterAllowance(c, caller, allowance).value)
  {
  }

  /** A checked quota change is a reconfiguration of the quota, so it keeps the invariant. */
  lemma IncreaseMinterAllowancePreservesInv(c: Contract, caller: AccountId, increment: U128)
    requires Inv(c)
    ensures IncreaseMinterAllowance(c, caller, increment).Ok? ==> Inv(IncreaseMinterAllowance(c, caller, increment).value)
  {
    if GetMinter(c, caller).Ok? {
      var sum := CheckedAdd(MinterAllowance(c, c.controllers[caller]), increment);
      if sum.Some? { ConfigureMinterAllowancePreservesInv(c, caller, sum.value); }
    }
  }

  lemma DecreaseMinterAllowancePreservesInv(c: Contract, caller: AccountId, decrement: U128)
    requires Inv(c)
    ensures DecreaseMinterAllowance(c, caller, decrement).Ok? ==> Inv(DecreaseMinterAllowance(c, caller, decrement).value)
  {
    if GetMinter(c, caller).Ok? {
      var difference := CheckedSub(MinterAllowance(c, c.controllers[caller]), decrement);
      if difference.Some? { ConfigureMinterAllowancePreservesInv(c, caller, difference.value); }
    }
  }

  lemma RemoveMinterPreservesInv(c: Contract, caller: AccountId)
    requires Inv(c)
    ensures RemoveMinter(c, caller).Ok? ==> Inv(RemoveMinter(c, caller).value)
  {
  }

  lemma UpdateBlocklisterPreservesInv(c: Contract, caller: AccountId, newBlocklister: AccountId)
    requires Inv(c)
    ensures UpdateBlocklister(c, caller, newBlocklister).Ok? ==> Inv(UpdateBlocklister(c, caller, newBlocklister).value)
  {
  }

  lemma ConfigureMultisigRolePreservesInv(c: Contract, caller: AccountId, role: Role, account: AccountId)
    requires Inv(c)
    ensures ConfigureMultisigRole(c, caller, role, account).Ok? ==> Inv(ConfigureMultisigRole(c, caller, role, account).value)
  {
  }

  lemma RevokeMultisigRolePreservesInv(c: Contract, caller: AccountId, role: Role, account: AccountId)
    requires Inv(c)
    ensures RevokeMultisigRole(c, caller, role, account).Ok? ==> Inv(RevokeMultisigRole(c, caller, role, account).value)
  {
  }

  /** Every governance action, run as any account, keeps the invariant. */
  lemma ExecuteActionPreservesInv(c: Contract, caller: AccountId, action: A.Action)
    requires Inv(c)
    ensures ExecuteAction(c, caller, action).Ok? ==> Inv(ExecuteAction(c, caller, action).value)
  {
    match action
    case ConfigureController(controllerId, minterId) => ConfigureControllerPreservesInv(c, caller, controllerId, minterId);
    case ConfigureMinterAllowance(_, minterAllowance) => ConfigureMinterAllowancePreservesInv(c, caller, minterAllowance);
    case ConfigureMultisigRole(role, accountId) => ConfigureMultisigRolePreservesInv(c, caller, role, accountId);
    case DecreaseMinterAllowance(_, decrement) => DecreaseMinterAllowancePreservesInv(c, caller, decrement);
    case IncreaseMinterAllowance(_, increment) => IncreaseMinterAllowancePreservesInv(c, caller, increment);
    case RemoveController(controllerId) => RemoveControllerPreservesInv(c, caller, controllerId);
    case RemoveMinter(_) => RemoveMinterPreservesInv(c, caller);
    case RevokeMultisigRole(role, accountId) => RevokeMultisigRolePreservesInv(c, caller, role, accountId);
    case UpdateBlocklister(newBlocklisterId) => UpdateBlocklisterPreservesInv(c, caller, newBlocklisterId);
    case _ =>
  }

  /**
   The operation an executed action runs checks, by itself, the same role `role_required`
   names: only an account holding that role can make an executed request succeed.
   */
  lemma ExecutionRechecksRequiredRole(c: Contract, caller: AccountId, action: A.Action)
    requires ExecuteAction(c, caller, action).Ok?
    ensures Has(c.roles, caller, A.RoleRequired(action))
  {
    match action
    case ConfigureMultisigRole(role, _) =>
    case RevokeMultisigRole(role, _) =>
    case _ =>
  }

  /** The externally callable state-changing entry points; the governance operations are reachable only through `ExecuteRequest`. */
  datatype Call =
    | ApproveCall(spender: AccountId, value: U128)
    | IncreaseAllowanceCall(spender: AccountId, increment: U128)
    | DecreaseAllowanceCall(spender: AccountId, decrement: U128)
    | TransferFromCall(from: AccountId, to: AccountId, value: U128)
    | FtTransferCall(receiver: AccountId, amount: U128)
    | MintCall(to: AccountId, amount: U128)
    | BurnCall(amount: U128)
    | BlocklistCall(account: AccountId)
    | UnblocklistCall(account: AccountId)
    | UpgradeCall
    | CreateRequest(action: A.Action)
    | ApproveRequest(id: U32)
    | ExecuteRequest(id: U32)
    | RemoveRequest(id: U32)

  /** One external call by `caller` at block time `nowNs`. */
  function Step(c: Contract, caller: AccountId, nowNs: nat, call: Call): Result<Contract>
  {
    match call
    case ApproveCall(spender, value) => Approve(c, caller, spender, value)
    case IncreaseAllowanceCall(spender, increment) => IncreaseAllowance(c, caller, spender, increment)
    case DecreaseAllowanceCall(spender, decrement) => DecreaseAllowance(c, caller, spender, decrement)
    case TransferFromCall(from, to, value) => TransferFrom(c, caller, from, to, value)
    case FtTransferCall(receiver, amount) => FtTransfer(c, caller, receiver, amount)
    case MintCall(to, amount) => Mint(c, caller, to, amount)
    case BurnCall(amount) => Burn(c, caller, amount)
    case BlocklistCall(account) => Blocklist(c, caller, account)
    case UnblocklistCall(account) => Unblocklist(c, caller, account)
    case UpgradeCall => Upgrade(c, caller)
    case CreateRequest(action) =>
      var created :- CreateMultisigRequest(c, caller, action, nowNs);
      Ok(created.0)
    case ApproveRequest(id) => ApproveMultisigRequest(c, caller, id, nowNs)
    case ExecuteRequest(id) => ExecuteMultisigRequest(c, caller, id, nowNs)
    case RemoveRequest(id) => RemoveMultisigRequest(c, caller, id, nowNs)
  }

  /** Allowance and transfer calls touch only allowances and balances, which the invariant does not constrain. */
  lemma HolderCallsPreserveInv(c: Contract, caller: AccountId, nowNs: nat, call: Call)
    requires Inv(c)
    requires call.ApproveCall? || call.IncreaseAllowanceCall? || call.DecreaseAllowanceCall?
             || call.TransferFromCall? || call.FtTransferCall?
    ensures Step(c, caller, nowNs, call).Ok? ==> Inv(Step(c, caller, nowNs, call).value)
  {
  }

  /** Minting spends the quota of an account that, being a Minter, already has a quota entry. */
  lemma MintPreservesInv(c: Contract, caller: AccountId, to: AccountId, amount: U128)
    requires Inv(c)
    ensures Mint(c, caller, to, amount).Ok? ==> Inv(Mint(c, caller, to, amount).value)
  {
  }

  lemma BlocklistPreservesInv(c: Contract, caller: AccountId, account: AccountId)
    requires Inv(c)
    ensures Blocklist(c, caller, account).Ok? ==> Inv(Blocklist(c, caller, account).value)
  {
  }

  lemma UnblocklistPreservesInv(c: Contract, caller: AccountId, account: AccountId)
    requires Inv(c)
    ensures Unblocklist(c, caller, account).Ok? ==> Inv(Unblocklist(c, caller, account).value)
  {
  }

  lemma BlocklistCallsPreserveInv(c: Contract, caller: AccountId, account: AccountId)
    requires Inv(c)
    ensures Blocklist(c, caller, account).Ok? ==> Inv(Blocklist(c, caller, account).value)
    ensures Unblocklist(c, caller, account).Ok? ==> Inv(Unblocklist(c, caller, account).value)
  {
    BlocklistPreservesInv(c, caller, account);
    UnblocklistPreservesInv(c, caller, account);
  }

  /** The request-store calls other than execution change only the store. */
  lemma RequestCallsPreserveInv(c: Contract, caller: AccountId, nowNs: nat, call: Call)
    requires Inv(c)
    requires call.CreateRequest? || call.ApproveRequest? || call.RemoveRequest?
    ensures Step(c, caller, nowNs, call).Ok? ==> Inv(Step(c, caller, nowNs, call).value)
  {
    match call
    case CreateRequest(action) =>
      MS.TransitionsPreserveValid(c.multisig, action, 0, caller, ManagerAuthorizes(c, caller), nowNs);
    case ApproveRequest(id) =>
      MS.TransitionsPreserveValid(c.multisig, A.Pause, id, caller, ManagerAuthorizes(c, caller), nowNs);
    case RemoveRequest(id) =>
      MS.TransitionsPreserveValid(c.multisig, A.Pause, id, caller, ManagerAuthorizes(c, caller), nowNs);
  }

  /** Executing a request keeps the invariant: the store shrinks and the action keeps the rest. */
  lemma ExecuteRequestPreservesInv(c: Contract, caller: AccountId, id: U32, nowNs: nat)
    requires Inv(c)
    ensures ExecuteMultisigRequest(c, caller, id, nowNs).Ok? ==> Inv(ExecuteMultisigRequest(c, caller, id, nowNs).value)
  {
    if ExecuteMultisigRequest(c, caller, id, nowNs).Ok? {
      var taken := MS.Execute(c.multisig, id, ManagerAuthorizes(c, caller), nowNs).value;
      MS.TransitionsPreserveValid(c.multisig, taken.1, id, caller, true, nowNs);
      ExecuteActionPreservesInv(c.(multisig := taken.0), caller, taken.1);
    }
  }

  /** The invariant holds in every state reachable from `init` by external calls. */
  lemma StepPreservesInv(c: Contract, caller: AccountId, nowNs: nat, call: Call)
    requires Inv(c)
    ensures Step(c, caller, nowNs, call).Ok? ==> Inv(Step(c, caller, nowNs, call).value)
  {
    match call
    case MintCall(to, amount) => MintPreservesInv(c, caller, to, amount);
    case BurnCall(_) =>
    case BlocklistCall(account) => BlocklistCallsPreserveInv(c, caller, account);
    case UnblocklistCall(account) => BlocklistCallsPreserveInv(c, caller, account);
    case UpgradeCall =>
    case ExecuteRequest(id) => ExecuteRequestPreservesInv(c, caller, id, nowNs);
    case CreateRequest(_) => RequestCallsPreserveInv(c, caller, nowNs, call);
    case ApproveRequest(_) => RequestCallsPreserveInv(c, caller, nowNs, call);
    case RemoveRequest(_) => RequestCallsPreserveInv(c, caller, nowNs, call);
    case _ => HolderCallsPreserveInv(c, caller, nowNs, call);
  }

  /** `c'` agrees with `c` on the controller table, the pause flag, the blocklister and every role but Blocklisted. */
  ghost predicate KeepsGovernance(c: Contract, c': Contract)
  {
    && c'.controllers == c.controllers && c'.paused == c.paused && c'.blocklister == c.blocklister
    && forall a, q :: q != Blocklisted ==> (Has(c'.roles, a, q) <==> Has(c.roles, a, q))
  }

  lemma HolderCallsKeepGovernance(c: Contract, caller: AccountId, nowNs: nat, call: Call)
    requires call.ApproveCall? || call.IncreaseAllowanceCall? || call.DecreaseAllowanceCall?
             || call.TransferFromCall? || call.FtTransferCall?
    requires Step(c, caller, nowNs, call).Ok?
    ensures KeepsGovernance(c, Step(c, caller, nowNs, call).value)
  {
  }

  lemma TokenCallsKeepGovernance(c: Contract, caller: AccountId, nowNs: nat, call: Call)
    requires call.MintCall? || call.BurnCall? || call.BlocklistCall? || call.UnblocklistCall? || call.UpgradeCall?
    requires Step(c, caller, nowNs, call).Ok?
    ensures KeepsGovernance(c, Step(c, caller, nowNs, call).value)
  {
  }

  lemma RequestCallsKeepGovernance(c: Contract, caller: AccountId, nowNs: nat, call: Call)
    requires call.CreateRequest? || call.ApproveRequest? || call.RemoveRequest?
    requires Step(c, caller, nowNs, call).Ok?
    ensures KeepsGovernance(c, Step(c, caller, nowNs, call).value)
  {
  }

  /**
   Outside the multisig path, no call changes the controller table, the pause flag, the
   blocklister or any role other than Blocklisted.
   */
  lemma DirectCallsKeepGovernance(c: Contract, caller: AccountId, nowNs: nat, call: Call)
    requires !call.ExecuteRequest?
    requires Step(c, caller, nowNs, call).Ok?
    ensures KeepsGovernance(c, Step(c, caller, nowNs, call).value)
  {
    if call.CreateRequest? || call.ApproveRequest? || call.RemoveRequest? {
      RequestCallsKeepGovernance(c, caller, nowNs, call);
    } else if call.MintCall? || call.BurnCall? || call.BlocklistCall? || call.UnblocklistCall? || call.UpgradeCall? {
      TokenCallsKeepGovernance(c, caller, nowNs, call);
    } else {
      HolderCallsKeepGovernance(c, caller, nowNs, call);
    }
  }

  // ---------------------------------------------------------------------------------------
  // Round trips.
  // ---------------------------------------------------------------------------------------

  /**
   Raising a minter's quota by `d` and lowering it by `d` again restores the quota; for a
   minter that was already configured it restores the whole state.
   */
  lemma MinterAllowanceRoundTrip(c: Contract, caller: AccountId, d: U128)
    requires IncreaseMinterAllowance(c, caller, d).Ok?
    ensures var up := IncreaseMinterAllowance(c, caller, d).value;
            && DecreaseMinterAllowance(up, caller, d).Ok?
            && MinterAllowance(DecreaseMinterAllowance(up, caller, d).value, c.controllers[caller]) == MinterAllowance(c, c.controllers[caller])
    ensures Inv(c) && IsMinter(c, c.controllers[caller]) ==>
              DecreaseMinterAllowance(IncreaseMinterAllowance(c, caller, d).value, caller, d) == Ok(c)
  {
    if Inv(c) && IsMinter(c, c.controllers[caller]) {
      var m := c.controllers[caller];
      var up := IncreaseMinterAllowance(c, caller, d).value;
      AddPresentIsNoOp(c.roles, m, Minter);
      assert up == c.(minterAllowed := c.minterAllowed[m := c.minterAllowed[m] + d]);
      var down := DecreaseMinterAllowance(up, caller, d).value;
      assert down.minterAllowed == up.minterAllowed[m := c.minterAllowed[m]];
      assert down.minterAllowed == c.minterAllowed;
    }
  }

  /** Raising a holder's allowance by `d` and lowering it by `d` again restores the state. */
  lemma AllowanceRoundTrip(c: Contract, caller: AccountId, spender: AccountId, d: U128)
    requires IncreaseAllowance(c, caller, spender, d).Ok?
    ensures DecreaseAllowance(IncreaseAllowance(c, caller, spender, d).value, caller, spender, d) == Ok(c)
  {
    var k := (caller, spender);
    var up := IncreaseAllowance(c, caller, spender, d).value;
    assert up == c.(allowed := c.allowed[k := c.allowed[k] + d]);
    var down := DecreaseAllowance(up, caller, spender, d).value;
    assert down.allowed == up.allowed[k := c.allowed[k]];
    assert down.allowed == c.allowed;
  }

  /** Pausing and unpausing by the same pauser cancel out. */
  lemma PauseRoundTrip(c: Contract, caller: AccountId)
    ensures Pause(c, caller).Ok? ==> Unpause(Pause(c, caller).value, caller) == Ok(c)
    ensures Unpause(c, caller).Ok? ==> Pause(Unpause(c, caller).value, caller) == Ok(c)
  {
  }

  /** Unblocklisting a freshly blocklisted account restores the state. */
  lemma BlocklistRoundTrip(c: Contract, caller: AccountId, account: AccountId)
    requires Blocklist(c, caller, account).Ok? && !IsBlocklisted(c, account)
    ensures Unblocklist(Blocklist(c, caller, account).value, caller, account) == Ok(c)
  {
    RemoveUndoesAdd(c.roles, account, Blocklisted);
  }

  /** Revoking a freshly granted governance role restores the state. */
  lemma GrantRevokeRoundTrip(c: Contract, caller: AccountId, role: Role, account: AccountId)
    requires ConfigureMultisigRole(c, caller, role, account).Ok?
    requires !Has(c.roles, account, role) && !Has(c.roles, account, Multisig)
    ensures RevokeMultisigRole(ConfigureMultisigRole(c, caller, role, account).value, caller, role, account) == Ok(c)
  {
    var granted := ConfigureMultisigRole(c, caller, role, account).value;
    var revoked := RevokeMultisigRoleFrom(granted.roles, account, role);
    SameGrantsSameRelation(revoked, c.roles);
  }

  /** Revoking a role from an account that holds neither it nor the marker is a successful no-op. */
  lemma RevokeFromNonHolderIsNoOp(c: Contract, caller: AccountId, role: Role, account: AccountId)
    requires RevokeMultisigRole(c, caller, role, account).Ok?
    requires !Has(c.roles, account, role) && !Has(c.roles, account, Multisig)
    ensures RevokeMultisigRole(c, caller, role, account) == Ok(c)
  {
    SameGrantsSameRelation(RevokeMultisigRoleFrom(c.roles, account, role), c.roles);
  }

  /**
   Revoking one governance role also strips the Multisig marker, even from an account that
   keeps another governance role.
   */
  lemma RevokeDropsMarkerOfRemainingRole(c: Contract, caller: AccountId, role: Role, kept: Role, account: AccountId)
    requires RevokeMultisigRole(c, caller, role, account).Ok?
    requires kept != role && kept != Multisig && Has(c.roles, account, kept)
    ensures var c' := RevokeMultisigRole(c, caller, role, account).value;
            Has(c'.roles, account, kept) && !Has(c'.roles, account, Multisig)
  {
  }

  // ---------------------------------------------------------------------------------------
  // Minting and spending.
  // ---------------------------------------------------------------------------------------

  /** A successful mint uses up its amount: a later mint that together with it exceeds the quota fails. */
  lemma MintQuotaIsConsumed(c: Contract, caller: AccountId, to: AccountId, first: U128, second: U128)
    requires Mint(c, caller, to, first).Ok?
    requires 0 < second && first + second > MinterAllowance(c, caller)
    ensures Mint(Mint(c, caller, to, first).value, caller, to, second) == Err(MintExceedsAllowance)
  {
  }

  /** Two mints of 100 against a quota of 123: the first leaves 23, the second fails. */
  lemma MintTwiceAgainst123(c: Contract, caller: AccountId, to: AccountId)
    requires MinterAllowance(c, caller) == 123 && Mint(c, caller, to, 100).Ok?
    ensures MinterAllowance(Mint(c, caller, to, 100).value, caller) == 23
    ensures Mint(Mint(c, caller, to, 100).value, caller, to, 100) == Err(MintExceedsAllowance)
  {
    MintQuotaIsConsumed(c, caller, to, 100, 100);
  }

  /** Burning leaves the quota alone, so burn-then-mint can never mint more than the quota allowed. */
  lemma BurnThenMintKeepsQuota(c: Contract, caller: AccountId, to: AccountId, burned: U128, minted: U128)
    requires Burn(c, caller, burned).Ok?
    requires 0 < minted && minted > MinterAllowance(c, caller)
    ensures Mint(Burn(c, caller, burned).value, caller, to, minted).Err?
  {
  }

  // ---------------------------------------------------------------------------------------
  // Upgrade approval.
  // ---------------------------------------------------------------------------------------

  /** An approval enables one upgrade by any non-blocklisted Admin, and the upgrade consumes it. */
  lemma UpgradeApprovalIsSingleUse(c: Contract, approver: AccountId, upgrader: AccountId)
    requires ApproveForUpgrade(c, approver).Ok?
    requires Has(c.roles, upgrader, Admin) && !IsBlocklisted(c, upgrader)
    ensures var approved := ApproveForUpgrade(c, approver).value;
            && Upgrade(approved, upgrader).Ok?
            && Upgrade(Upgrade(approved, upgrader).value, upgrader) == Err(NotApprovedForUpgrade)
  {
  }

  // ---------------------------------------------------------------------------------------
  // Multisig wrappers.
  // ---------------------------------------------------------------------------------------

  /**
   A controller may create a request naming another controller's minter, since `create`
   makes no controller check; approving it is then refused.
   */
  lemma CreateSkipsControllerCheck(c: Contract, caller: AccountId, action: A.Action, nowNs: nat)
    requires A.RequiresControllerCheck(action)
    requires Has(c.roles, caller, Controller) && Has(c.roles, caller, Multisig) && c.multisig.nextRequestId < U32_MAX
    requires caller in c.controllers && action.controllerId in c.controllers
    requires c.controllers[action.controllerId] != c.controllers[caller]
    ensures CreateMultisigRequest(c, caller, action, nowNs).Ok?
    ensures var created := CreateMultisigRequest(c, caller, action, nowNs).value;
            ApproveMultisigRequest(created.0, caller, created.1, nowNs) == Err(NotOwnMinter(ApproveOp))
  {
    A.ControllerScopedRequiresController(action);
  }

  /**
   Two distinct controllers of the same minter can each approve a fresh request about that
   minter, after which the request has the two approvals the deployed threshold asks for.
   */
  lemma CoControllersMayCoApprove(c: Contract, x: AccountId, y: AccountId, id: U32, nowNs: nat)
    requires c.multisig.config == MS.DeployedConfig
    requires id in c.multisig.requests
    requires var req := c.multisig.requests[id];
             && A.RequiresControllerCheck(req.action) && req.approvedBy == {}
             && !MS.Expired(c.multisig.config, req, nowNs)
    requires x != y
    requires Has(c.roles, x, Controller) && Has(c.roles, x, Multisig)
    requires Has(c.roles, y, Controller) && Has(c.roles, y, Multisig)
    requires var named := c.multisig.requests[id].action.controllerId;
             && named in c.controllers && x in c.controllers && y in c.controllers
             && c.controllers[x] == c.controllers[named] && c.controllers[y] == c.controllers[named]
    ensures ApproveMultisigRequest(c, x, id, nowNs).Ok?
    ensures var once := ApproveMultisigRequest(c, x, id, nowNs).value;
            && ApproveMultisigRequest(once, y, id, nowNs).Ok?
            && MS.ExecutionEligibility(ApproveMultisigRequest(once, y, id, nowNs).value.multisig, id, nowNs) == Pass
  {
    A.ControllerScopedRequiresController(c.multisig.requests[id].action);
    var once := ApproveMultisigRequest(c, x, id, nowNs).value;
    var twice := ApproveMultisigRequest(once, y, id, nowNs).value;
    assert twice.multisig.requests[id].approvedBy == {x, y};
  }

  /** Executing a request that has one approval under the deployed threshold of two is refused. */
  lemma OneApprovalCannotExecute(c: Contract, caller: AccountId, id: U32, nowNs: nat)
    requires c.multisig.config == MS.DeployedConfig
    requires RequestGuards(c, caller, id, ExecuteOp).Pass? && Has(c.roles, caller, Multisig)
    requires |c.multisig.requests[id].approvedBy| == 1 && !MS.Expired(c.multisig.config, c.multisig.requests[id], nowNs)
    ensures ExecuteMultisigRequest(c, caller, id, nowNs) == Err(InsufficientApprovals(1, 2))
  {
  }

  /**
   The approval manager admits only Multisig holders: an account without the Multisig role
   can neither create, approve, execute nor remove a request, whatever other role it holds.
   */
  lemma MultisigRoleRequired(c: Contract, caller: AccountId, action: A.Action, id: U32, nowNs: nat)
    requires !Has(c.roles, caller, Multisig)
    ensures CreateMultisigRequest(c, caller, action, nowNs).Err?
    ensures ApproveMultisigRequest(c, caller, id, nowNs).Err?
    ensures ExecuteMultisigRequest(c, caller, id, nowNs).Err?
    ensures RemoveMultisigRequest(c, caller, id, nowNs).Err?
  {
  }

  /**
   An Owner that loses another governance role loses the Multisig role with it, and from
   then on cannot create any request, even one that Owner alone would cover.
   */
  lemma RevokedOwnerCannotCreate(c: Contract, admin: AccountId, role: Role, owner: AccountId,
                                 action: A.Action, nowNs: nat)
    requires RevokeMultisigRole(c, admin, role, owner).Ok?
    requires role != Owner && Has(c.roles, owner, Owner)
    ensures var c' := RevokeMultisigRole(c, admin, role, owner).value;
            && Has(c'.roles, owner, Owner)
            && (A.RoleRequired(action) == Owner ==> CreateMultisigRequest(c', owner, action, nowNs) == Err(UnauthorizedAccount))
  {
  }

  /**
   The sequence of the co-controller test: one controller creates and approves a request to
   configure the allowance of the minter it shares with a second controller, the second
   approves and executes it, and the minter then holds Minter with exactly that allowance.
   */
  lemma CoControllersConfigureMinterAllowance(c: Contract, x: AccountId, y: AccountId, v: U128, t: nat)
    requires c.multisig.config == MS.DeployedConfig && c.multisig.nextRequestId < U32_MAX
    requires x != y
    requires Has(c.roles, x, Controller) && Has(c.roles, x, Multisig)
    requires Has(c.roles, y, Controller) && Has(c.roles, y, Multisig)
    requires x in c.controllers && y in c.controllers && c.controllers[x] == c.controllers[y]
    requires !IsBlocklisted(c, y) && !IsBlocklisted(c, c.controllers[y])
    ensures CreateMultisigRequest(c, x, A.ConfigureMinterAllowance(x, v), t).Ok?
    ensures var created := CreateMultisigRequest(c, x, A.ConfigureMinterAllowance(x, v), t).value;
            var once := ApproveMultisigRequest(created.0, x, created.1, t);
            && once.Ok?
            && ApproveMultisigRequest(once.value, y, created.1, t).Ok?
            && var done := ExecuteMultisigRequest(ApproveMultisigRequest(once.value, y, created.1, t).value, y, created.1, t);
               && done.Ok?
               && IsMinter(done.value, c.controllers[x]) && MinterAllowance(done.value, c.controllers[x]) == v
  {
    var action := A.ConfigureMinterAllowance(x, v);
    var created := CreateMultisigRequest(c, x, action, t).value;
    var id := created.1;
    assert created.0.multisig.requests[id] == MS.Request(action, {}, t);
    CoControllersMayCoApprove(created.0, x, y, id, t);
    var once := ApproveMultisigRequest(created.0, x, id, t).value;
    var twice := ApproveMultisigRequest(once, y, id, t).value;
    assert twice.roles == c.roles && twice.controllers == c.controllers;
    ExecutingConfigureSetsQuota(twice, y, id, t);
  }

  /**
   Executing an eligible request to configure a minter allowance, by a non-blocklisted
   controller of a non-blocklisted minter, gives that minter Minter and exactly the quota
   the request names.
   */
  lemma ExecutingConfigureSetsQuota(c: Contract, caller: AccountId, id: U32, nowNs: nat)
    requires id in c.multisig.requests && c.multisig.requests[id].action.ConfigureMinterAllowance?
    requires RequestGuards(c, caller, id, ExecuteOp).Pass? && ManagerAuthorizes(c, caller)
    requires MS.ExecutionEligibility(c.multisig, id, nowNs).Pass?
    requires caller in c.controllers && !IsBlocklisted(c, caller) && !IsBlocklisted(c, c.controllers[caller])
    ensures ExecuteMultisigRequest(c, caller, id, nowNs).Ok?
    ensures var done := ExecuteMultisigRequest(c, caller, id, nowNs).value;
            && IsMinter(done, c.controllers[caller])
            && MinterAllowance(done, c.controllers[caller]) == c.multisig.requests[id].action.minterAllowance
  {
    var consumed := Consumed(c, id);
    assert GetMinter(consumed, caller) == Ok(c.controllers[caller]);
  }

  /**
   `get_minter` reads back what `configure_controller` set: the configured controller
   resolves to its minter, and once the controller is removed it resolves to nothing.
   */
  lemma ConfiguredControllerResolvesMinter(c: Contract, masterMinter: AccountId, controller: AccountId, minter: AccountId)
    requires ConfigureController(c, masterMinter, controller, minter).Ok?
    ensures GetMinter(ConfigureController(c, masterMinter, controller, minter).value, controller) == Ok(minter)
    ensures var configured := ConfigureController(c, masterMinter, controller, minter).value;
            && RemoveController(configured, masterMinter, controller).Ok?
            && GetMinter(RemoveController(configured, masterMinter, controller).value, controller).Err?
  {
  }

  /** `ft_transfer` between two different accounts moves exactly `amount` and touches nobody else. */
  lemma FtTransferMovesAmount(c: Contract, caller: AccountId, receiver: AccountId, amount: U128)
    requires caller != receiver
    requires FtTransfer(c, caller, receiver, amount).Ok?
    ensures var c' := FtTransfer(c, caller, receiver, amount).value;
            && L.BalanceOf(c'.token, caller) + amount == L.BalanceOf(c.token, caller)
            && L.BalanceOf(c'.token, receiver) == L.BalanceOf(c.token, receiver) + amount
            && (forall b :: b != caller && b != receiver ==> L.BalanceOf(c'.token, b) == L.BalanceOf(c.token, b))
  {
    L.TransferMovesAmount(c.token, caller, receiver, amount);
  }

  /**
   As written, `increase_minter_allowance` does not check that the minter is active: after
   `remove_minter`, an increase succeeds and makes the removed minter a Minter again with a
   quota of the increment.
   */
  lemma IncreaseReenablesRemovedMinter(c: Contract, controller: AccountId, increment: U128)
    requires RemoveMinter(c, controller).Ok?
    requires !IsBlocklisted(c, c.controllers[controller]) && 0 < increment
    ensures var removed := RemoveMinter(c, controller).value;
            var m := c.controllers[controller];
            && !IsMinter(removed, m)
            && IncreaseMinterAllowance(removed, controller, increment).Ok?
            && IsMinter(IncreaseMinterAllowance(removed, controller, increment).value, m)
            && MinterAllowance(IncreaseMinterAllowance(removed, controller, increment).value, m) == increment
  {
  }

  /** Under the documented behaviour, a removed minter stays removed: the increase is refused. */
  lemma IncreaseActiveRefusesRemovedMinter(c: Contract, controller: AccountId, increment: U128)
    requires RemoveMinter(c, controller).Ok?
    requires !IsBlocklisted(c, c.controllers[controller])
    ensures IncreaseActiveMinterAllowance(RemoveMinter(c, controller).value, controller, increment) == Err(NotRole(Minter))
  {
  }

  /**
   The expired-request scenario under a one-nanosecond validity period: a request created
   at `t` and approved at any later instant is refused as expired, whoever approves it.
   */
  lemma OneNanosecondRequestExpires(c: Contract, caller: AccountId, id: U32, t: nat, nowNs: nat)
    requires c.multisig.config.validityPeriodNs == 1
    requires id in c.multisig.requests && c.multisig.requests[id].createdAtNs == t && t < nowNs
    requires RequestGuards(c, caller, id, ApproveOp).Pass? && Has(c.roles, caller, Multisig)
    ensures ApproveMultisigRequest(c, caller, id, nowNs) == Err(ApprovalRequestExpired)
  {
  }
}

=== FILE: ledger.dfy ===
/**
 The fungible-token balance ledger the contract delegates to, reduced to what the
 contract relies on: per-account `u128` balances and a total supply, credited by
 deposits and debited by withdrawals with checked arithmetic.
 */
module FungibleLedger {
  import opened Numeric
  import opened Rbac
  import opened Errors

  datatype Ledger = Ledger(balances: map<AccountId, U128>, totalSupply: U128)

  const Empty := Ledger(map[], 0)

  /** An account without an entry holds nothing. */
  function BalanceOf(l: Ledger, a: AccountId): U128
  {
    if a in l.balances then l.balances[a] else 0
  }

  /** Two ledgers that report the same balances and the same supply. */
  ghost predicate Equivalent(l: Ledger, l': Ledger)
  {
    l.totalSupply == l'.totalSupply && forall a :: BalanceOf(l, a) == BalanceOf(l', a)
  }

  /** Credits `amount` to `a`; fails rather than wrap on balance or supply overflow. */
  function Deposit(l: Ledger, a: AccountId, amount: U128): (r: Result<Ledger>)
    ensures r.Ok? <==> BalanceOf(l, a) + amount <= U128_MAX && l.totalSupply + amount <= U128_MAX
    ensures r.Ok? ==> BalanceOf(r.value, a) == BalanceOf(l, a) + amount
    ensures r.Ok? ==> r.value.totalSupply == l.totalSupply + amount
    ensures r.Ok? ==> forall b :: b != a ==> BalanceOf(r.value, b) == BalanceOf(l, b)
  {
    if BalanceOf(l, a) + amount > U128_MAX then Err(BalanceOverflow)
    else if l.totalSupply + amount > U128_MAX then Err(TotalSupplyOverflow)
    else Ok(Ledger(l.balances[a := BalanceOf(l, a) + amount], l.totalSupply + amount))
  }

  /** Debits `amount` from `a`; fails when the balance (or the supply) is smaller. */
  function Withdraw(l: Ledger, a: AccountId, amount: U128): (r: Result<Ledger>)
    ensures r.Ok? <==> amount <= BalanceOf(l, a) && amount <= l.totalSupply
    ensures r.Ok? ==> BalanceOf(r.value, a) + amount == BalanceOf(l, a)
    ensures r.Ok? ==> r.value.totalSupply + amount == l.totalSupply
    ensures r.Ok? ==> forall b :: b != a ==> BalanceOf(r.value, b) == BalanceOf(l, b)
  {
    if amount > BalanceOf(l, a) then Err(InsufficientBalance)
    else if amount > l.totalSupply then Err(TotalSupplyOverflow)
    else Ok(Ledger(l.balances[a := BalanceOf(l, a) - amount], l.totalSupply - amount))
  }

  /** Moves `amount` from `from` to `to` as a withdrawal followed by a deposit. */
  function Transfer(l: Ledger, from: AccountId, to: AccountId, amount: U128): (r: Result<Ledger>)
    ensures r.Ok? ==> r.value.totalSupply == l.totalSupply
  {
    var l1 :- Withdraw(l, from, amount);
    Deposit(l1, to, amount)
  }

  /** Withdrawing what was just deposited restores every balance and the supply. */
  lemma WithdrawUndoesDeposit(l: Ledger, a: AccountId, amount: U128)
    requires Deposit(l, a, amount).Ok?
    ensures Withdraw(Deposit(l, a, amount).value, a, amount).Ok?
    ensures Equivalent(Withdraw(Deposit(l, a, amount).value, a, amount).value, l)
  {
  }

  /** A transfer between two different accounts moves exactly `amount` and touches nobody else. */
  lemma TransferMovesAmount(l: Ledger, from: AccountId, to: AccountId, amount: U128)
    requires from != to
    requires Transfer(l, from, to, amount).Ok?
    ensures BalanceOf(Transfer(l, from, to, amount).value, from) + amount == BalanceOf(l, from)
    ensures BalanceOf(Transfer(l, from, to, amount).value, to) == BalanceOf(l, to) + amount
    ensures forall b :: b != from && b != to ==> BalanceOf(Transfer(l, from, to, amount).value, b) == BalanceOf(l, b)
  {
    var l1 := Withdraw(l, from, amount).value;
    assert BalanceOf(l1, to) == BalanceOf(l, to);
  }
}

=== FILE: multisig.dfy ===
/**
 The multisig request store and its approval state machine, as the token contract
 configures it: a threshold of two distinct approvals and a validity period of five
 days, where a validity period of 0 means requests never expire and can never be removed.
 Requests are numbered by a `u32` counter that starts at 0 and only ever increases.
 */
module Multisig {
  import opened Numeric
  import opened Rbac
  import opened Errors
  import opened Actions

  /** Approvals needed before a request may be executed. */
  const APPROVAL_THRESHOLD: nat := 2
  /** Five days, in nanoseconds. */
  const VALIDITY_PERIOD_NS: nat := 432000000000000

  datatype Config = Config(threshold: nat, validityPeriodNs: nat)

  /** The configuration the contract installs at initialization. */
  const DeployedConfig := Config(APPROVAL_THRESHOLD, VALIDITY_PERIOD_NS)

  datatype Request = Request(action: Action, approvedBy: set<AccountId>, createdAtNs: nat)

  datatype Store = Store(config: Config, nextRequestId: U32, requests: map<U32, Request>)

  /** A fresh store: no requests, and the first identifier handed out will be 0. */
  function New(config: Config): (s: Store)
    ensures s.nextRequestId == 0 && s.requests == map[] && s.config == config
  {
    Store(config, 0, map[])
  }

  /** Every stored request carries an identifier already handed out by the counter. */
  predicate Valid(s: Store)
  {
    forall id :: id in s.requests ==> id < s.nextRequestId
  }

  /**
   A request is live while strictly less than the validity period has elapsed since its
   creation, and expired from the instant the whole period has elapsed; period 0 never
   expires.
   */
  predicate Expired(config: Config, req: Request, nowNs: nat)
  {
    config.validityPeriodNs != 0 && nowNs >= req.createdAtNs + config.validityPeriodNs
  }

  /**
   Stores `action` under the next identifier with no approvals; the proposer is not
   counted as an approver. `authorized` is the approval manager's check on the proposer
   (membership of the Multisig role), evaluated by the caller. The counter is a `u32`;
   incrementing it past its maximum fails.
   */
  function Create(s: Store, action: Action, authorized: bool, nowNs: nat): (r: Result<(Store, U32)>)
    ensures r.Ok? <==> authorized && s.nextRequestId < U32_MAX
    ensures r.Ok? ==> r.value.1 == s.nextRequestId && r.value.0.nextRequestId == s.nextRequestId + 1
    ensures r.Ok? ==> r.value.0.config == s.config
    ensures r.Ok? ==> r.value.0.requests == s.requests[r.value.1 := Request(action, {}, nowNs)]
    ensures !authorized ==> r == Err(UnauthorizedAccount)
    ensures authorized && r.Err? ==> r.error == RequestIdOverflow
  {
    var id := s.nextRequestId;
    if !authorized then Err(UnauthorizedAccount)
    else if id == U32_MAX then Err(RequestIdOverflow)
    else Ok((Store(s.config, id + 1, s.requests[id := Request(action, {}, nowNs)]), id))
  }

  /**
   Records `approver`'s approval. `authorized` is the approval manager's own check on the
   approver (membership of the Multisig role), evaluated by the caller. An expired request
   cannot be approved, and nobody can approve the same request twice.
   */
  function Approve(s: Store, id: U32, approver: AccountId, authorized: bool, nowNs: nat): (r: Result<Store>)
    ensures r.Ok? <==>
              && id in s.requests && authorized
              && !Expired(s.config, s.requests[id], nowNs)
              && approver !in s.requests[id].approvedBy
    ensures r.Ok? ==>
              && r.value.config == s.config && r.value.nextRequestId == s.nextRequestId
              && r.value.requests.Keys == s.requests.Keys
              && r.value.requests[id].approvedBy == s.requests[id].approvedBy + {approver}
              && r.value.requests[id].action == s.requests[id].action
              && r.value.requests[id].createdAtNs == s.requests[id].createdAtNs
              && (forall j :: j in s.requests && j != id ==> r.value.requests[j] == s.requests[j])
    ensures id in s.requests && authorized && Expired(s.config, s.requests[id], nowNs) ==> r == Err(ApprovalRequestExpired)
  {
    if id !in s.requests then Err(RequestNotFound)
    else
      var req := s.requests[id];
      if !authorized then Err(UnauthorizedAccount)
      else if Expired(s.config, req, nowNs) then Err(ApprovalRequestExpired)
      else if approver in req.approvedBy then Err(AlreadyApprovedByAccount)
      else Ok(s.(requests := s.requests[id := req.(approvedBy := req.approvedBy + {approver})]))
  }

  /** Whether a request may run now: it exists, is not expired, and has reached the threshold. */
  function ExecutionEligibility(s: Store, id: U32, nowNs: nat): (o: Outcome)
    ensures o.Pass? <==>
              && id in s.requests
              && !Expired(s.config, s.requests[id], nowNs)
              && |s.requests[id].approvedBy| >= s.config.threshold
    ensures id in s.requests && Expired(s.config, s.requests[id], nowNs) ==> o == Fail(ExecutionRequestExpired)
  {
    if id !in s.requests then Fail(RequestNotFound)
    else
      var req := s.requests[id];
      if Expired(s.config, req, nowNs) then Fail(ExecutionRequestExpired)
      else if |req.approvedBy| < s.config.threshold then
        Fail(InsufficientApprovals(|req.approvedBy|, s.config.threshold))
      else Pass
  }

  /**
   Consumes an eligible request, handing back the action to run. `authorized` is the
   approval manager's check on the executor, made before eligibility.
   */
  function Execute(s: Store, id: U32, authorized: bool, nowNs: nat): (r: Result<(Store, Action)>)
    ensures r.Ok? <==> authorized && ExecutionEligibility(s, id, nowNs).Pass?
    ensures r.Ok? ==> r.value.1 == s.requests[id].action
    ensures r.Ok? ==> r.value.0 == s.(requests := s.requests - {id})
    ensures id in s.requests && !authorized ==> r == Err(UnauthorizedAccount)
    ensures authorized && ExecutionEligibility(s, id, nowNs).Fail? ==> r == Err(ExecutionEligibility(s, id, nowNs).error)
  {
    if id !in s.requests then Err(RequestNotFound)
    else if !authorized then Err(UnauthorizedAccount)
    else
      var eligible := ExecutionEligibility(s, id, nowNs);
      :- eligible;
      Ok((s.(requests := s.requests - {id}), s.requests[id].action))
  }

  /**
   Discards a request without running it; only an expired request may be removed, and only
   by an account passing the approval manager's check (`authorized`).
   */
  function Remove(s: Store, id: U32, authorized: bool, nowNs: nat): (r: Result<Store>)
    ensures r.Ok? <==> id in s.requests && authorized && Expired(s.config, s.requests[id], nowNs)
    ensures r.Ok? ==> r.value == s.(requests := s.requests - {id})
    ensures id in s.requests && !authorized ==> r == Err(UnauthorizedAccount)
    ensures id in s.requests && authorized && r.Err? ==> r.error == RequestStillValid
  {
    if id !in s.requests then Err(RequestNotFound)
    else if !authorized then Err(UnauthorizedAccount)
    else if !Expired(s.config, s.requests[id], nowNs) then Err(RequestStillValid)
    else Ok(s.(requests := s.requests - {id}))
  }

  // ---------------------------------------------------------------------------------------
  // Lifecycle properties.
  // ---------------------------------------------------------------------------------------

  /** Every transition of the store keeps stored identifiers below the counter. */
  lemma TransitionsPreserveValid(s: Store, action: Action, id: U32, a: AccountId, authorized: bool, nowNs: nat)
    requires Valid(s)
    ensures Create(s, action, authorized, nowNs).Ok? ==> Valid(Create(s, action, authorized, nowNs).value.0)
    ensures Approve(s, id, a, authorized, nowNs).Ok? ==> Valid(Approve(s, id, a, authorized, nowNs).value)
    ensures Execute(s, id, authorized, nowNs).Ok? ==> Valid(Execute(s, id, authorized, nowNs).value.0)
    ensures Remove(s, id, authorized, nowNs).Ok? ==> Valid(Remove(s, id, authorized, nowNs).value)
  {
  }

  /** A newly created request never reuses the identifier of a request still in the store. */
  lemma CreateUsesFreshId(s: Store, action: Action, nowNs: nat)
    requires Valid(s)
    requires Create(s, action, true, nowNs).Ok?
    ensures Create(s, action, true, nowNs).value.1 !in s.requests
  {
  }

  /**
   Removing a request does not give its identifier back: create, remove, create hands out
   consecutive identifiers.
   */
  lemma RemovalDoesNotRewindCounter(s: Store, a1: Action, a2: Action, t1: nat, t2: nat, t3: nat)
    requires Create(s, a1, true, t1).Ok?
    requires Remove(Create(s, a1, true, t1).value.0, Create(s, a1, true, t1).value.1, true, t2).Ok?
    ensures var s1 := Remove(Create(s, a1, true, t1).value.0, Create(s, a1, true, t1).value.1, true, t2).value;
            Create(s1, a2, true, t3).Ok? ==> Create(s1, a2, true, t3).value.1 == Create(s, a1, true, t1).value.1 + 1
  {
  }

  /** A second approval by the same account is always refused, whenever it is attempted. */
  lemma SecondApprovalRefused(s: Store, id: U32, a: AccountId, authorized: bool, t1: nat, t2: nat)
    requires Approve(s, id, a, authorized, t1).Ok?
    ensures Approve(Approve(s, id, a, authorized, t1).value, id, a, authorized, t2).Err?
    ensures var s1 := Approve(s, id, a, authorized, t1).value;
            !Expired(s1.config, s1.requests[id], t2) ==>
              Approve(s1, id, a, authorized, t2).error == AlreadyApprovedByAccount
  {
  }

  /** Approving never executes or removes the request, even when it reaches the threshold. */
  lemma ApprovalKeepsRequestPending(s: Store, id: U32, a: AccountId, authorized: bool, nowNs: nat)
    requires Approve(s, id, a, authorized, nowNs).Ok?
    ensures id in Approve(s, id, a, authorized, nowNs).value.requests
    ensures |Approve(s, id, a, authorized, nowNs).value.requests[id].approvedBy| == |s.requests[id].approvedBy| + 1
  {
  }

  /** With the deployed threshold, one approval is not enough and the error reports 1 of 2. */
  lemma OneApprovalIsInsufficient(s: Store, id: U32, nowNs: nat)
    requires s.config == DeployedConfig
    requires id in s.requests && |s.requests[id].approvedBy| == 1
    requires !Expired(s.config, s.requests[id], nowNs)
    ensures ExecutionEligibility(s, id, nowNs) == Fail(InsufficientApprovals(1, 2))
  {
  }

  /**
   Expiry boundary: a request is still live one nanosecond before the end of its validity
   period and expired at that end; an expired request can be neither approved nor executed,
   but can be removed, and a live one cannot.
   */
  lemma ExpiryBoundary(s: Store, id: U32, a: AccountId, authorized: bool)
    requires id in s.requests && s.config.validityPeriodNs > 0
    ensures var end := s.requests[id].createdAtNs + s.config.validityPeriodNs;
            && !Expired(s.config, s.requests[id], end - 1)
            && Expired(s.config, s.requests[id], end)
            && Approve(s, id, a, authorized, end).Err?
            && Approve(s, id, a, true, end) == Err(ApprovalRequestExpired)
            && Execute(s, id, authorized, end).Err?
            && Execute(s, id, true, end) == Err(ExecutionRequestExpired)
            && Remove(s, id, true, end).Ok?
            && Remove(s, id, authorized, end - 1).Err?
  {
  }

  /** With a validity period of 0 a request never expires and can never be removed. */
  lemma PerpetualRequestsCannotBeRemoved(s: Store, id: U32, authorized: bool, nowNs: nat)
    requires s.config.validityPeriodNs == 0
    ensures id in s.requests ==> !Expired(s.config, s.requests[id], nowNs)
    ensures Remove(s, id, authorized, nowNs).Err?
  {
  }

  /** Two distinct approvals within the validity period make a request executable under the deployed configuration. */
  lemma TwoApprovalsSuffice(s: Store, id: U32, a: AccountId, b: AccountId, t1: nat, t2: nat, t3: nat)
    requires s.config == DeployedConfig && id in s.requests && s.requests[id].approvedBy == {}
    requires Approve(s, id, a, true, t1).Ok?
    requires Approve(Approve(s, id, a, true, t1).value, id, b, true, t2).Ok?
    requires t3 < s.requests[id].createdAtNs + VALIDITY_PERIOD_NS
    ensures Execute(Approve(Approve(s, id, a, true, t1).value, id, b, true, t2).value, id, true, t3).Ok?
  {
    var s2 := Approve(Approve(s, id, a, true, t1).value, id, b, true, t2).value;
    assert a != b;
    assert s2.requests[id].approvedBy == {a, b};
  }

  /** An account failing the approval manager's check can neither create, approve, execute nor remove a request. */
  lemma UnauthorizedCallerRefused(s: Store, action: Action, id: U32, a: AccountId, nowNs: nat)
    ensures Create(s, action, false, nowNs) == Err(UnauthorizedAccount)
    ensures id in s.requests ==> Approve(s, id, a, false, nowNs) == Err(UnauthorizedAccount)
    ensures id in s.requests ==> Execute(s, id, false, nowNs) == Err(UnauthorizedAccount)
    ensures id in s.requests ==> Remove(s, id, false, nowNs) == Err(UnauthorizedAccount)
  {
  }
}

=== FILE: numeric.dfy ===
/**
 The fixed-width unsigned integers the contract uses: `u128` for amounts and allowances
 (carried over JSON as `U128`) and `u32` for multisig request identifiers, with Rust's
 checked arithmetic, which reports overflow instead of wrapping.
 */
module Numeric {
  import opened Wrappers

  const U128_MAX: nat := 0xffff_ffff_ffff_ffff_ffff_ffff_ffff_ffff
  const U32_MAX: nat := 0xffff_ffff

  type U128 = n: int | 0 <= n <= U128_MAX
  type U32 = n: int | 0 <= n <= U32_MAX

  /** `u128::checked_add`: the sum, or nothing when it does not fit in 128 bits. */
  function CheckedAdd(a: U128, b: U128): (r: Option<U128>)
    ensures r.Some? <==> a + b <= U128_MAX
    ensures r.Some? ==> r.value - b == a
  {
    if a + b <= U128_MAX then Some(a + b) else None
  }

  /** `u128::checked_sub`: the difference, or nothing when it would go below zero. */
  function CheckedSub(a: U128, b: U128): (r: Option<U128>)
    ensures r.Some? <==> b <= a
    ensures r.Some? ==> r.value + b == a
  {
    if b <= a then Some(a - b) else None
  }

  /** Subtracting what was just added gives back the original value. */
  lemma SubUndoesAdd(a: U128, b: U128)
    requires CheckedAdd(a, b).Some?
    ensures CheckedSub(CheckedAdd(a, b).value, b) == Some(a)
  {
  }

  function DigitChar(d: nat): (c: char)
    requires d < 10
    ensures '0' <= c <= '9'
  {
    "0123456789"[d]
  }

  /** Base-10 rendering of a natural number without leading zeros, as Rust's `Display`/`Debug` print it. */
  function Decimal(n: nat): (s: string)
    ensures |s| > 0
    ensures forall i :: 0 <= i < |s| ==> '0' <= s[i] <= '9'
    ensures n >= 10 ==> s[0] != '0'
    decreases n
  {
    if n < 10 then [DigitChar(n)] else Decimal(n / 10) + [DigitChar(n % 10)]
  }

  /** Reads back a string of decimal digits. */
  function ParseDecimal(s: string): (n: nat)
    requires forall i :: 0 <= i < |s| ==> '0' <= s[i] <= '9'
    decreases |s|
  {
    if |s| == 0 then 0
    else ParseDecimal(s[..|s| - 1]) * 10 + ((s[|s| - 1] as int) - ('0' as int))
  }

  /** Printing a number in decimal and reading it back gives the same number. */
  lemma {:induction false} DecimalRoundTrip(n: nat)
    ensures ParseDecimal(Decimal(n)) == n
    decreases n
  {
    if n >= 10 {
      var s := Decimal(n);
      assert s[..|s| - 1] == Decimal(n / 10);
      DecimalRoundTrip(n / 10);
    }
  }

  /** Distinct numbers print differently, so a printed counter identifies its value. */
  lemma DecimalInjective(m: nat, n: nat)
    ensures Decimal(m) == Decimal(n) ==> m == n
  {
    DecimalRoundTrip(m);
    DecimalRoundTrip(n);
  }
}

=== FILE: rbac.dfy ===
/**
 The role registry: the relation between accounts and the roles they hold. Adding a role
 already held and removing a role not held are both silent no-ops; authorization is
 checked by the callers, not here.
 */
module Rbac {
  import opened Roles

  type AccountId = string

  /** Which accounts hold which roles. */
  type Relation = set<(AccountId, Role)>

  predicate Has(rel: Relation, a: AccountId, r: Role)
  {
    (a, r) in rel
  }

  /** Grants `r` to `a`, leaving every other assignment as it was. */
  function Add(rel: Relation, a: AccountId, r: Role): (rel': Relation)
    ensures Has(rel', a, r)
    ensures forall b, q :: (b != a || q != r) ==> (Has(rel', b, q) <==> Has(rel, b, q))
  {
    rel + {(a, r)}
  }

  /** Revokes `r` from `a`, leaving every other assignment as it was. */
  function Remove(rel: Relation, a: AccountId, r: Role): (rel': Relation)
    ensures !Has(rel', a, r)
    ensures forall b, q :: (b != a || q != r) ==> (Has(rel', b, q) <==> Has(rel, b, q))
  {
    rel - {(a, r)}
  }

  /** The holders of a role, as an unordered set (enumeration order is not modelled). */
  function Members(rel: Relation, r: Role): (s: set<AccountId>)
    ensures forall a :: a in s <==> Has(rel, a, r)
  {
    set p | p in rel && p.1 == r :: p.0
  }

  /** Granting twice is the same as granting once, and likewise for revoking. */
  lemma AddRemoveIdempotent(rel: Relation, a: AccountId, r: Role)
    ensures Add(Add(rel, a, r), a, r) == Add(rel, a, r)
    ensures Remove(Remove(rel, a, r), a, r) == Remove(rel, a, r)
  {
  }

  /** Revoking a role the account does not hold changes nothing. */
  lemma RemoveAbsentIsNoOp(rel: Relation, a: AccountId, r: Role)
    requires !Has(rel, a, r)
    ensures Remove(rel, a, r) == rel
  {
  }

  /** Granting a role the account already holds changes nothing. */
  lemma AddPresentIsNoOp(rel: Relation, a: AccountId, r: Role)
    requires Has(rel, a, r)
    ensures Add(rel, a, r) == rel
  {
  }

  /** Revoking a freshly granted role restores the relation. */
  lemma RemoveUndoesAdd(rel: Relation, a: AccountId, r: Role)
    requires !Has(rel, a, r)
    ensures Remove(Add(rel, a, r), a, r) == rel
  {
  }

  /** Two relations that grant the same roles to the same accounts are equal. */
  lemma {:induction false} SameGrantsSameRelation(x: Relation, y: Relation)
    requires forall b, q :: Has(x, b, q) <==> Has(y, b, q)
    ensures x == y
  {
    forall p | p in x ensures p in y { assert Has(x, p.0, p.1); }
    forall p | p in y ensures p in x { assert Has(y, p.0, p.1); }
  }
}

=== FILE: requires.dfy ===
/**
 The two authorization guards every privileged operation starts with. Both are pure
 reads of the role registry: they return a verdict and never a new state.
 */
module Guards {
  import opened Roles
  import opened Rbac
  import opened Errors

  /** Fails exactly when `account` holds the Blocklisted role. */
  function RequireNotBlocklisted(roles: Relation, account: AccountId): (o: Outcome)
    ensures o.Pass? <==> !Has(roles, account, Blocklisted)
    ensures o.Fail? ==> Message(o.error) == ContractPrefix + (account + " is blocklisted")
  {
    ContractMessage(AccountBlocklisted(account));
    Need(!Has(roles, account, Blocklisted), AccountBlocklisted(account))
  }

  /** Fails unless the caller holds exactly the role `r`; no role implies another. */
  function RequireOnly(roles: Relation, caller: AccountId, r: Role): (o: Outcome)
    ensures o.Pass? <==> Has(roles, caller, r)
    ensures o.Fail? ==> Message(o.error) == ContractPrefix + ("caller is not a " + Name(r))
  {
    ContractMessage(NotRole(r));
    Need(Has(roles, caller, r), NotRole(r))
  }

  /**
   There is no role hierarchy: holding every role except `r` does not pass the guard for `r`
   (an Admin is not thereby an Owner).
   */
  lemma NoRoleHierarchy(roles: Relation, caller: AccountId, r: Role)
    requires forall q :: q != r ==> Has(roles, caller, q)
    requires !Has(roles, caller, r)
    ensures RequireOnly(roles, caller, r).Fail?
    ensures forall q :: q != r ==> RequireOnly(roles, caller, q).Pass?
  {
  }

  /** The "caller is not a ..." message identifies the missing role. */
  lemma NotRoleMessageIdentifiesRole(a: Role, b: Role)
    ensures Message(NotRole(a)) == Message(NotRole(b)) ==> a == b
  {
    var prefix := ContractPrefix + "caller is not a ";
    ContractMessage(NotRole(a));
    ContractMessage(NotRole(b));
    assert Message(NotRole(a)) == prefix + Name(a);
    assert Message(NotRole(b)) == prefix + Name(b);
    if Message(NotRole(a)) == Message(NotRole(b)) {
      assert Message(NotRole(a))[|prefix|..] == Name(a);
      assert Message(NotRole(b))[|prefix|..] == Name(b);
      NameInjective(a, b);
    }
  }

  /** The role-guard text the unit tests match. */
  lemma NotOwnerMessageMatchesSourceTest()
    ensures Message(NotRole(Owner)) == "FiatToken: " + ("caller is not a " + "Owner")
  {
    ContractMessage(NotRole(Owner));
  }

  /** The blocklist-guard text the unit tests match. */
  lemma BlocklistedMessageMatchesSourceTest()
    ensures Message(AccountBlocklisted("alice")) == "FiatToken: " + ("alice" + " is blocklisted")
  {
    ContractMessage(AccountBlocklisted("alice"));
  }
}

=== FILE: role.dfy ===
/**
 The roles of the token contract. The role enum is persisted by its Borsh discriminant
 (the position of the variant in the declaration), so its order is part of the storage
 format: variants may only ever be appended.
 */
module Roles {
  import opened Wrappers

  datatype Role =
    | Multisig
    | Admin
    | Blocklister   // not a multisig role
    | Controller
    | MasterMinter
    | Minter        // not a multisig role
    | Owner
    | Pauser
    | Blocklisted   // added after deployment, hence last

  /** The variants in declaration order: position `i` holds the role persisted as discriminant `i`. */
  const Declared: seq<Role> :=
    [Multisig, Admin, Blocklister, Controller, MasterMinter, Minter, Owner, Pauser, Blocklisted]

  /** The Borsh discriminant of a role. */
  function Ordinal(r: Role): (n: nat)
    ensures n < |Declared| && Declared[n] == r
  {
    match r
    case Multisig => 0
    case Admin => 1
    case Blocklister => 2
    case Controller => 3
    case MasterMinter => 4
    case Minter => 5
    case Owner => 6
    case Pauser => 7
    case Blocklisted => 8
  }

  /** Decodes a persisted discriminant; anything past the last variant is not a role. */
  function FromOrdinal(n: nat): (r: Option<Role>)
    ensures r.Some? <==> n < |Declared|
    ensures r.Some? ==> Ordinal(r.value) == n
  {
    if n < |Declared| then Some(Declared[n]) else None
  }

  /** Encoding then decoding a role gives the role back; the nine discriminants are 0..8. */
  lemma OrdinalRoundTrip(r: Role)
    ensures FromOrdinal(Ordinal(r)) == Some(r)
    ensures Ordinal(r) <= Ordinal(Blocklisted) == 8
  {
  }

  /** Distinct roles are persisted under distinct discriminants. */
  lemma OrdinalInjective(a: Role, b: Role)
    ensures Ordinal(a) == Ordinal(b) ==> a == b
  {
  }

  /** The `Display` text of a role: its own identifier, a capitalised run of letters. */
  function Name(r: Role): (s: string)
    ensures 0 < |s| && 'A' <= s[0] <= 'Z'
    ensures forall k :: 0 <= k < |s| ==> ('A' <= s[k] <= 'Z') || ('a' <= s[k] <= 'z')
  {
    match r
    case Multisig => "Multisig"
    case Admin => "Admin"
    case Blocklister => "Blocklister"
    case Controller => "Controller"
    case MasterMinter => "MasterMinter"
    case Minter => "Minter"
    case Owner => "Owner"
    case Pauser => "Pauser"
    case Blocklisted => "Blocklisted"
  }

  /** The inverse of `Name`: the role whose identifier is `s`, if any. */
  function ParseName(s: string): (r: Option<Role>)
    ensures r.Some? ==> Name(r.value) == s
  {
    if s == "Multisig" then Some(Multisig)
    else if s == "Admin" then Some(Admin)
    else if s == "Blocklister" then Some(Blocklister)
    else if s == "Controller" then Some(Controller)
    else if s == "MasterMinter" then Some(MasterMinter)
    else if s == "Minter" then Some(Minter)
    else if s == "Owner" then Some(Owner)
    else if s == "Pauser" then Some(Pauser)
    else if s == "Blocklisted" then Some(Blocklisted)
    else None
  }

  /** Every printed role name reads back as that role. */
  lemma NameRoundTrip(r: Role)
    ensures ParseName(Name(r)) == Some(r)
  {
  }

  /** `Display` is injective: two roles printing the same text are the same role. */
  lemma NameInjective(a: Role, b: Role)
    ensures Name(a) == Name(b) ==> a == b
  {
    NameRoundTrip(a);
    NameRoundTrip(b);
  }

  /**
   The roles granted together with the `Multisig` marker (the governance roles).
   Blocklister and Minter are the roles the declaration marks as non-multisig.
   */
  predicate IsGovernance(r: Role)
  {
    r == Admin || r == Controller || r == MasterMinter || r == Owner || r == Pauser
  }

  /** The two roles annotated as non-multisig are not governance roles, nor is the marker itself. */
  lemma NonMultisigRoles()
    ensures !IsGovernance(Blocklister) && !IsGovernance(Minter)
    ensures !IsGovernance(Multisig) && !IsGovernance(Blocklisted)
  {
  }

  // ---------------------------------------------------------------------------------------
  // Schema evolution of a discriminant-persisted enum.
  // ---------------------------------------------------------------------------------------

  /** The meaning of a stored discriminant under a given variant list. */
  function Decode<T>(variants: seq<T>, n: nat): Option<T>
  {
    if n < |variants| then Some(variants[n]) else None
  }

  /** A new variant list `after` that only appends to the old list `before`. */
  predicate AppendOnly<T(==)>(before: seq<T>, after: seq<T>)
  {
    |before| <= |after| && after[..|before|] == before
  }

  /** Under an append-only change every discriminant persisted by the old code keeps its meaning. */
  lemma AppendOnlyPreservesMeaning<T>(before: seq<T>, after: seq<T>, n: nat)
    requires AppendOnly(before, after)
    requires n < |before|
    ensures Decode(after, n) == Decode(before, n)
  {
    assert after[..|before|][n] == after[n];
  }

  /** Conversely, any change that is not append-only silently changes the meaning of some stored discriminant. */
  lemma NonAppendChangesMeaning<T>(before: seq<T>, after: seq<T>) returns (n: nat)
    requires |before| <= |after|
    requires !AppendOnly(before, after)
    ensures n < |before| && Decode(after, n) != Decode(before, n)
  {
    var k :| 0 <= k < |before| && after[..|before|][k] != before[k];
    n := k;
  }

  /** The role names in declaration order: the persisted schema of the role enum. */
  function DeclaredNames(): (names: seq<string>)
    ensures |names| == |Declared|
    ensures forall r: Role :: names[Ordinal(r)] == Name(r)
  {
    seq(|Declared|, i requires 0 <= i < |Declared| => Name(Declared[i]))
  }

  /** An extended role enum that only appends keeps every existing role under its before discriminant. */
  lemma ExtensionKeepsRoles(extended: seq<string>, r: Role)
    requires AppendOnly(DeclaredNames(), extended)
    ensures Decode(extended, Ordinal(r)) == Some(Name(r))
  {
    AppendOnlyPreservesMeaning(DeclaredNames(), extended, Ordinal(r));
  }
}

=== FILE: wrappers.dfy ===
/** Optional values, used wherever the contract reads a possibly missing storage entry. */
module Wrappers {

  datatype Option<+T> = None | Some(value: T)
}
